=== FILE: README.md ===
# A verified model of the page-22 2-D physics engine

This project models, in Dafny, the small rigid-body engine behind the home page of
page-22. It has two layers:

- **`src/Assets/Math.js`.** The linear-algebra layer. Its vectors have a runtime
  dimension. Its dimension checks *return* an `Error` object rather than throwing. It
  provides in-place `add`, `mul` and `linearTransform`, the norms, `innerProd`,
  `distSqr`, `dist`, `sub` and `copy`, and row-major matrices.
- **`src/Assets/Physic2d.js`.** The physics layer:
  - the planar extension of `Vector` (`rot`, `proj`, `projSize`);
  - the bodies (`Dot`, `Mass`, `Circle`, `FixedRectangle`);
  - a `System` that applies gravity to every movable body, collides every pair of
    bodies, integrates with semi-implicit Euler and sums the energy.

The page driver's tick, `gravityAll → collisionAll → moveAll(dt)`, is modelled as one
step function over a system.

The engine mutates objects in place. In the model every vector and body is a value, and
every mutating method is a function from the receiver's old state to its new one. There
are two kinds of failure:

- **A returned `Error` value** (`Fault.DimensionMismatch`). The receiver is left
  untouched. `GetOr(receiver)` recovers the receiver's state after the call.
- **A thrown `TypeError`** (`Fault.TypeError`). This happens when a method is called on
  `undefined`, e.g. when a collision leaves its `force` unset. It aborts the tick, so
  `collisionAll` and the tick return `Result`s.

`Math.sqrt`, `Math.sin` and `Math.cos` are uninterpreted functions held in a `MathFns`
value. A lemma that needs `Math.sqrt` to be a square root at a point says so with
`SqrtAt`.

The model keeps the source's quirks and proves them:

- `add` with a falsy coefficient adds with coefficient 1.
- `init` with one argument reads it as a length, so `copy` and `sub` are wrong on 1-D
  vectors.
- `move(0)` is not a no-op.
- The nearest-vertex search (`closeVertex`), the projected extent of the rectangle
  (`min2`, `max2`) and the least-overlap axis (`minOverlap`) start from the literal
  `999999999` (`−999999999` for `max2`). They replace their bound only on a strict
  improvement, so the first candidate wins ties. The rectangle's bounding box is instead a
  `Math.min`/`Math.max` fold started from the anchor point.
- Semi-implicit Euler loses exactly `½·m·(g·dt)²` of energy per free-fall tick.

Files, one module each:

- `results.dfy`: `Option`, `Result` and `Fault`.
- `linalg.dfy`: `Math.js`.
- `planar.dfy`: `rot`, `proj` and `projSize`.
- `scan.dfy`: the running-minimum loops.
- `bodies.dfy`: the body classes, `force` and `move`.
- `collide.dfy`: `intervalDist` and the two narrow-phase collision routines.
- `world.dfy`: `System`, the pair loop, energy and the tick.

## Model

| member | source | states |
|---|---|---|
| LinAlg.EntryIndexInRange | src/Assets/Math.js:8-10 | for `0 ≤ i < n` and `0 ≤ j < m`, the row-major index `i·m + j` read by `entry(i, j)` lies in `[0, n·m)` |
| LinAlg.Entry | src/Assets/Math.js:8-10 | no contract; `entry(i, j)` reads `entries[i·m + j]`, which is in range by LinAlg.EntryIndexInRange |
| LinAlg.Init | src/Assets/Math.js:58-68 | no contract; meaning given by LinAlg.CopyExactIffNotOneDim and LinAlg.CopyOfOneDimIsZeros |
| LinAlg.Copy | src/Assets/Math.js:50-52 | no contract; meaning given by LinAlg.CopyExactIffNotOneDim and LinAlg.CopyOfOneDimIsZeros |
| LinAlg.LoopCount | src/Assets/Math.js:61-63 | the number of iterations of `for (i = 0; i < n; i++)` is 0 for `n ≤ 0` and otherwise the least natural number at least `n` |
| LinAlg.CopyExactIffNotOneDim | src/Assets/Math.js:50-52 | `copy()` re-runs `init` on the components and reproduces the vector if and only if its dimension is not 1 |
| LinAlg.CopyOfOneDimIsZeros | src/Assets/Math.js:58-66 | for every 1-D vector `(x)`, `copy` takes the one-argument `init` path and gives `LoopCount(x)` zeros; e.g. `(3)` becomes the 3-D zero vector |
| LinAlg.Coefficient | src/Assets/Math.js:74-83 | the coefficient `add` really applies is never zero: it is `c` itself when `c` is truthy, and 1 when `c` is absent or 0 (`!!c` false) |
| LinAlg.Add | src/Assets/Math.js:70-85 | `add(v, c)` fails exactly on a dimension mismatch; otherwise it keeps the dimension and each component gains the coefficient times `v`'s component |
| LinAlg.AddMismatchKeepsReceiver | src/Assets/Math.js:70-73 | on a dimension mismatch `add` returns the error value and the receiver's components are unchanged |
| LinAlg.AddFalsyCoefficientIsOne | src/Assets/Math.js:74-84 | `add(v, 0)`, `add(v)` and `add(v, 1)` coincide, and the receiver's dimension is kept whatever `c` is |
| LinAlg.AddRoundTrip | src/Assets/Math.js:70-85 | for a truthy `c`, `add(v, c)` followed by `add(v, -c)` restores the receiver |
| LinAlg.Mul | src/Assets/Math.js:87-92 | `mul(c)` keeps the dimension and multiplies every component by `c`; its inverse is given by LinAlg.MulRoundTrip |
| LinAlg.MulRoundTrip | src/Assets/Math.js:87-92 | `mul(c)` followed by `mul(1/c)` restores the vector for non-zero `c` |
| LinAlg.InnerProd | src/Assets/Math.js:18-27 | `innerProd` returns the error value exactly when the dimensions differ |
| LinAlg.DistSqr | src/Assets/Math.js:29-38 | `distSqr` returns the error value exactly when the dimensions differ |
| LinAlg.Dist | src/Assets/Math.js:40-42 | `dist` fails exactly on a mismatch; otherwise, where `Math.sqrt` is a square root, it is the non-negative number whose square is `distSqr` |
| LinAlg.Dir | src/Assets/Math.js:106-108 | `dir()` is undefined exactly when `size()` is 0, and otherwise keeps the dimension |
| LinAlg.InnerProdSymmetric | src/Assets/Math.js:18-27 | `innerProd(v1, v2) = innerProd(v2, v1)`, including in the mismatch case |
| LinAlg.SizeSqrIsInnerProdSelf | src/Assets/Math.js:94-100 | `sizeSqr()` is non-negative and equals `innerProd(v, v)` |
| LinAlg.DistSqrLaws | src/Assets/Math.js:29-38 | on equal dimensions `distSqr` succeeds with a non-negative value, and `distSqr(v, v) = 0` |
| LinAlg.SizeSqrOfMul | src/Assets/Math.js:87-100 | `mul(c)` multiplies `sizeSqr()` by `c²` |
| LinAlg.SizeSqr | src/Assets/Math.js:94-100 | no contract; meaning given by LinAlg.SizeSqrIsInnerProdSelf and LinAlg.SizeSqrOfMul |
| LinAlg.Size | src/Assets/Math.js:102-104 | no contract; meaning given by LinAlg.DirIsUnit, where `Math.sqrt` is a square root |
| LinAlg.InnerMulSelf | src/Assets/Math.js:18-27 | `innerProd(v.mul(s), v) = s·sizeSqr(v)`: a scaled vector points along `v` for `s > 0` and against it for `s < 0` |
| LinAlg.DirIsUnit | src/Assets/Math.js:102-108 | where `Math.sqrt` is a square root and the size is non-zero, `dir()` has squared size 1 and points along the vector: its inner product with `v` is `size(v)` |
| LinAlg.SubIsDifference | src/Assets/Math.js:44-48 | for dimensions other than 1, `sub(a, b)` is componentwise `a − b` and `distSqr(a, b)` is its squared size |
| LinAlg.SubSelfIsZeroIff | src/Assets/Math.js:44-48 | `sub(a, a)` is the zero vector of `a`'s dimension if and only if that dimension is not 1 |
| LinAlg.SubOfOneDim | src/Assets/Math.js:44-66 | for every 1-D `a`, `sub(a, b)` is `−b` when `b` has `LoopCount(a[0])` components and otherwise the zeros of the broken copy; e.g. `sub((2), (2))` is the 2-D zero vector |
| LinAlg.Sub | src/Assets/Math.js:44-48 | no contract; meaning given by LinAlg.SubIsDifference and LinAlg.SubSelfIsZeroIff |
| LinAlg.Transform | src/Assets/Math.js:110-113 | `linearTransform` fails exactly when the column count differs from the dimension; otherwise the result has `mat.n` components |
| LinAlg.LinearTransform | src/Assets/Math.js:110-123 | the source's nested loops compute component `i` as `Σ_j entry(i, j)·old[j]`, and report a mismatch before touching anything |
| LinAlg.TransformMismatchKeepsVector | src/Assets/Math.js:110-113 | on a column-count mismatch the receiver of `linearTransform` is unchanged |
| Planar.Rot | src/Assets/Physic2d.js:9-13 | `rot(angle)` fails unless the vector is 2-D; otherwise it is `(cos·x − sin·y, sin·x + cos·y)` |
| Planar.RotScalesSizeSqr | src/Assets/Physic2d.js:9-13 | rotation multiplies `sizeSqr()` by `cos² + sin²`, so it preserves the norm wherever `Math.cos` and `Math.sin` satisfy the Pythagorean identity |
| Planar.Proj | src/Assets/Physic2d.js:19-23 | `proj(u)` throws exactly when the receiver is not 2-D; otherwise it is `u` scaled by `(v·u)/(u·u)` |
| Planar.ProjIdempotent | src/Assets/Physic2d.js:19-23 | projecting twice onto the same direction is projecting once |
| Planar.ProjResidualOrthogonal | src/Assets/Physic2d.js:19-23 | `v − proj(u)` is orthogonal to `u` |
| Planar.ProjSize | src/Assets/Physic2d.js:25-27 | `projSize(u)` fails exactly on a dimension mismatch; otherwise it times `size(u)` is the inner product |
| Planar.ProjSizeMatchesProj | src/Assets/Physic2d.js:19-27 | where `Math.sqrt` is a square root, `projSize(u)²` is the squared size of `proj(u)` |
| Scan.MinFrom | src/Assets/Physic2d.js:57-66 | the `Math.min` fold from a start value is at most the start and every element, and equals one of them |
| Scan.MaxFrom | src/Assets/Physic2d.js:57-66 | the `Math.max` fold from a start value is at least the start and every element, and equals one of them |
| Scan.FirstMinBelowUnique | src/Assets/Physic2d.js:178-184 | at most one index is the first minimum below a bound, so "first minimum" determines the winner |
| Scan.ScanMin | src/Assets/Physic2d.js:178-184 | the strict-improvement scan resumed at any position ends at the first index attaining the least value below the bound, or `None` |
| Scan.FirstMin | src/Assets/Physic2d.js:176-184 | the whole scan from the sentinel picks the first index of least value below it; ties go to the earlier index |
| Bodies.Hitbox | src/Assets/Physic2d.js:104-109 | `updateHitbox()` gives a box centred on `p` with side `2·radius` in both axes |
| Bodies.RectVertices | src/Assets/Physic2d.js:48-55 | no contract; meaning given by Bodies.RectVerticesExplicit and Bodies.RectIsParallelogram |
| Bodies.RectVerticesExplicit | src/Assets/Physic2d.js:48-55 | the rectangle's corners are `p`, `p + w(cos, sin)`, `p + w(cos, sin) + h(−sin, cos)` and `p + h(−sin, cos)` |
| Bodies.NewMass | src/Assets/Physic2d.js:29-35 | `new Mass` takes `dotCnt` as its id, advances the counter by one, and starts with the given state and zero acceleration |
| Bodies.NewCircle | src/Assets/Physic2d.js:95-102 | `new Circle` takes the next id, keeps the given position, velocity, mass, radius and stiffness, starts at zero acceleration, and has the box `p ± radius` |
| Bodies.NewFixedRect | src/Assets/Physic2d.js:37-47 | `new FixedRectangle` takes the next id, records `w`, `h`, the angle, its sine and cosine, and has four 2-D vertices |
| Bodies.RectIsParallelogram | src/Assets/Physic2d.js:48-55 | the built rectangle satisfies `vertex0 + vertex2 = vertex1 + vertex3` in both coordinates |
| Bodies.RectBoxIsTight | src/Assets/Physic2d.js:57-66 | the rectangle's box contains all four vertices, and each bound equals some vertex's coordinate |
| Bodies.VertexBox | src/Assets/Physic2d.js:57-66 | no contract; meaning given by Bodies.RectBoxIsTight |
| Bodies.Force | src/Assets/Physic2d.js:80-82 | `force(f)` changes only the acceleration: it keeps the dimension, `m·Δa = f` componentwise, and a mismatched `f` changes nothing |
| Bodies.ForceSuperposes | src/Assets/Physic2d.js:80-82 | `force(f1)` then `force(f2)` equals `force(f1 + f2)` |
| Bodies.Move | src/Assets/Physic2d.js:84-88 | `move(dt)` keeps id and mass, resets the acceleration to `(0, 0)`, and a circle's box is recentred at `p ± radius` (`Circle.move`) |
| Bodies.MoveIsSemiImplicitEuler | src/Assets/Physic2d.js:84-88 | for `dt ≠ 0`, first `v += a·dt`, then `p += v_new·dt` with the new velocity |
| Bodies.MoveZeroStepQuirk | src/Assets/Physic2d.js:84-86 | `move(0)` adds the acceleration to the velocity and the new velocity to the position, since `add(x, 0)` uses coefficient 1 |
| Collide.IntervalDist | src/Assets/Physic2d.js:123-129 | no contract; meaning given by Collide.IntervalDistPositiveIffDisjoint and Collide.IntervalDistSignSymmetric |
| Collide.IntervalDistPositiveIffDisjoint | src/Assets/Physic2d.js:123-129 | for intervals with `min ≤ max` the signed gap is positive if and only if they are disjoint |
| Collide.IntervalDistSignSymmetric | src/Assets/Physic2d.js:123-129 | for such intervals, whether the gap is positive does not depend on their order |
| Collide.CentreDist | src/Assets/Physic2d.js:164 | no contract; the value of `Vector.dist` of the two centres (LinAlg.Dist), which never fails on well-formed circles |
| Collide.SpringFactor | src/Assets/Physic2d.js:165-170 | no contract; meaning given by Collide.SpringForceMagnitude and Collide.SpringForceRepulsive |
| Collide.SpringForce | src/Assets/Physic2d.js:168-170 | the force is 2-D; its size and direction are given by Collide.SpringForceMagnitude and Collide.SpringForceRepulsive |
| Collide.CircleCircle | src/Assets/Physic2d.js:163-173 | only the two circles' accelerations change, and nothing changes when the centres are farther apart than the sum of the radii |
| Collide.CircleCircleContact | src/Assets/Physic2d.js:169-172 | in contact, the first circle's momentum changes by the spring force and the second's by exactly its negation |
| Collide.CircleCircleEqualAndOpposite | src/Assets/Physic2d.js:163-173 | in every case `m1·Δa1 + m2·Δa2 = 0` in both coordinates |
| Collide.SpringForceMagnitude | src/Assets/Physic2d.js:164-170 | where `Math.sqrt` is a square root, the spring force has squared size `(k·(dist − (r1 + r2)))²` with `k` the mean stiffness |
| Collide.SpringForceRepulsive | src/Assets/Physic2d.js:164-171 | for touching circles with non-negative mean stiffness, where `Math.sqrt` is a square root, the force on the first circle points away from the second: its inner product with `p2 − p1` is not positive |
| Collide.NearestVertex | src/Assets/Physic2d.js:176-184 | `closeVertex` is the first vertex attaining the least squared distance below the sentinel, undefined if none gets below it |
| Collide.Axes | src/Assets/Physic2d.js:185-189 | three candidate axes, each defined axis 2-D |
| Collide.AxesGeometry | src/Assets/Physic2d.js:185-189 | the centre-to-vertex axis is the unit vector pointing from the centre to the nearest vertex where `Math.sqrt` is a square root; the rectangle's axes `(cos, sin)` and `(−sin, cos)` are orthogonal with squared size `cos² + sin²`, so unit where the angle's sine and cosine obey the Pythagorean identity |
| Collide.AxisTests | src/Assets/Physic2d.js:192-204 | an axis gets a test exactly when it is defined |
| Collide.TestAxis | src/Assets/Physic2d.js:193-204 | no contract; meaning given by Scan.MinFrom, Scan.MaxFrom and Collide.IntervalDistPositiveIffDisjoint for the projected intervals |
| Collide.SatLoop | src/Assets/Physic2d.js:190-216 | no contract; meaning given by Collide.SatLoopMeaning |
| Collide.SatLoopMeaning | src/Assets/Physic2d.js:190-216 | the axis loop returns "separated" if any axis has a positive gap; otherwise it holds the first axis of least overlap below the sentinel |
| Collide.PushScale | src/Assets/Physic2d.js:208-215 | no contract; its sign is given by Collide.PushScaleSign |
| Collide.PushScaleSign | src/Assets/Physic2d.js:208-215 | with `k ≥ 0` and an overlapping axis (`gap ≤ 0`), the factor `∓minOverlap·k` is not positive when the circle's interval starts below the rectangle's and not negative otherwise |
| Collide.Push | src/Assets/Physic2d.js:210-214 | no contract; meaning given by Collide.PushDirection |
| Collide.PushDirection | src/Assets/Physic2d.js:208-215 | with `k ≥ 0` and `gap ≤ 0`, the push points against the axis when the circle's interval starts below the rectangle's and along it otherwise: it pushes the circle out |
| Collide.PushMagnitude | src/Assets/Physic2d.js:208-215 | the push's squared size is `(minOverlap · k)²` times the axis's squared size, for either sign of the push |
| Collide.CircleRect | src/Assets/Physic2d.js:175-218 | a successful circle–rectangle collision changes only the circle's acceleration and keeps it well formed |
| Collide.CircleRectOutcome | src/Assets/Physic2d.js:175-218 | throws without a nearest vertex; leaves the circle alone if any axis separates; else pushes the circle alone by `∓minOverlap·k` along the first least-overlap axis, whose gap is not positive, or throws if there is none |
| Collide.ChosenAxis | src/Assets/Physic2d.js:208-215 | the chosen axis is defined, with overlap strictly below every earlier axis and at most every later one |
| World.Construct | src/Assets/Physic2d.js:29-115 | one constructor call takes `dotCnt` as id, advances it by one, builds a well-formed body, and sets the `type` tag of the class |
| World.ConstructAll | src/Assets/Physic2d.js:30-33 | successive constructions number the bodies `cnt, cnt + 1, …` and leave the counter at `cnt + count`; body `t` is the one built from shape `t` with id `cnt + t` |
| World.ConstructAllIdsIncrease | src/Assets/Physic2d.js:30-33 | bodies built one after another carry strictly increasing, hence pairwise distinct, ids |
| World.Populate | src/Assets/Physic2d.js:117-133 | `new System(g)` plus `addObject` of each body gives a system with gravity `g` holding, at index `t`, the body constructed from shape `t` |
| World.Gravity | src/Assets/Physic2d.js:135-139 | the gravity force `(0, −m·g)` lowers a movable body's y-acceleration by exactly `g` and changes nothing else |
| World.GravityAll | src/Assets/Physic2d.js:135-139 | `gravityAll()` lowers every movable body's y-acceleration by exactly `g`, keeps x, and never touches a fixed rectangle |
| World.MoveAll | src/Assets/Physic2d.js:141-145 | `moveAll(dt)` moves every movable body once, keeps every body's identity and constants, and leaves fixed rectangles as they were |
| World.PairsExactlyOnce | src/Assets/Physic2d.js:147-153 | `collisionAll` visits exactly the pairs `i < j < n`, each once, in strictly increasing lexicographic order |
| World.Collision | src/Assets/Physic2d.js:220-237 | apart boxes, a plain `Mass`, or two rectangles: no effect; otherwise only the pair's accelerations change; only a pair with a rectangle can throw; which routine acts on an overlapping pair is stated by World.CollisionOfCircles, World.CollisionOfCircleRect and World.CollisionOfRectCircle |
| World.CollisionCirclesEqualAndOpposite | src/Assets/Physic2d.js:228-230 | for two circles `collision` succeeds, and the momentum changes of the pair cancel |
| World.CollisionOfCircles | src/Assets/Physic2d.js:220-230 | for two circles `collision` acts as `CircleCircleCollision` unless the boxes are apart |
| World.CollisionOfCircleRect | src/Assets/Physic2d.js:220-233 | for a circle then a fixed rectangle whose boxes overlap, `collision` is `CircleFixedRectCollision(obj1, obj2)`: it changes only the circle, as `CircleRect` does, or throws its error |
| World.CollisionOfRectCircle | src/Assets/Physic2d.js:220-237 | for a fixed rectangle then a circle whose boxes overlap, `collision` is `CircleFixedRectCollision(obj2, obj1)`: it changes only the circle, as `CircleRect` does, or throws its error |
| World.CollidePairs | src/Assets/Physic2d.js:147-153 | a sequence of `collision` calls only changes accelerations, and a failure is a thrown `TypeError` |
| World.CollidePairsAppend | src/Assets/Physic2d.js:147-153 | running the pairs of `ps1 + ps2` is running `ps1` and then `ps2` from its result, a throw stopping everything |
| World.CollisionAll | src/Assets/Physic2d.js:147-153 | `collisionAll()` only changes accelerations of movable bodies; a failure is a thrown `TypeError` |
| World.CollideRow | src/Assets/Physic2d.js:149-151 | the inner `for` loop over `j` computes exactly the pair pass over row `i` |
| World.CollisionAllLoops | src/Assets/Physic2d.js:147-153 | the two nested `for` loops compute exactly `CollisionAll`, including where a throw ends the pass |
| World.TotalEnergyAppend | src/Assets/Physic2d.js:155-161 | `totalEnergy` of two lists side by side is the sum of their energies |
| World.TotalEnergyOfFixed | src/Assets/Physic2d.js:155-161 | the `movable` filter makes a list of fixed rectangles contribute zero energy |
| World.BodyEnergy | src/Assets/Physic2d.js:157-158 | no contract; meaning given by World.BodyEnergyOf, World.FallEnergy and World.TotalEnergyOfFixed |
| World.TotalEnergy | src/Assets/Physic2d.js:155-161 | no contract; meaning given by World.TotalEnergyAppend, World.TotalEnergyOfFixed and World.EnergyIgnoresAccel |
| World.EnergyIgnoresAccel | src/Assets/Physic2d.js:155-161 | `totalEnergy` is unchanged by any pass that only changes accelerations |
| World.Step | src/Pages/Home/index.js:43-45 | a tick throws only a `TypeError`; otherwise every body keeps its identity and constants, and movable bodies end with zero acceleration |
| World.AccelerationPassesKeepEnergy | src/Pages/Home/index.js:43-44 | `gravityAll` and a successful `collisionAll` leave the total energy as it was: within a tick only `moveAll` changes it |
| World.Run | src/Pages/Home/index.js:43-45 | repeated ticks keep gravity, the number of bodies and their well-formedness |
| World.LoneStep | src/Pages/Home/index.js:43-45 | a system with one movable body has no pair to collide, so its tick is gravity then `move(dt)` |
| World.RunLone | src/Pages/Home/index.js:43-45 | `n` ticks of a lone body never throw and are `n` such falls |
| World.FallVelocity | src/Assets/Physic2d.js:84-88 | one tick from rest acceleration keeps the x-velocity and lowers the y-velocity by `g·dt` |
| World.FallPosition | src/Assets/Physic2d.js:84-88 | one tick from rest acceleration moves the body by the new velocity times `dt` |
| World.FallEnergy | src/Assets/Physic2d.js:155-161 | one free-fall tick lowers the body's energy by exactly `½·m·(g·dt)²` |
| World.FallNVelocity | src/Assets/Physic2d.js:84-88 | after `n` free-fall ticks the x-velocity is unchanged and the y-velocity has lost `g·dt` `n` times |
| World.FallNEnergy | src/Assets/Physic2d.js:155-161 | after `n` free-fall ticks the body's energy has dropped by `½·m·(g·dt)²` `n` times |
| World.FreeFallEnergy | src/Assets/Physic2d.js:155-161 | `n` ticks of a lone body never throw, and `totalEnergy` drops by `n·½·m·(g·dt)²`: semi-implicit Euler does not conserve energy |

## Left out

- IEEE-754 arithmetic: rounding, NaN and Infinity are not modelled. Numbers are exact reals.
  Where the source would produce NaN, the model has an explicit outcome:
  - `dir()` of a zero vector is `None`;
  - a zero-length first axis in the circle–rectangle test is skipped, as both NaN
    comparisons are false;
  - `dist` and `projSize` on mismatched vectors stay errors.
- Planar.Proj: requires a non-zero direction `u`. For `u = 0` the source divides by zero
  and yields NaN components. It also requires `u` to be 2-D. The source reads only `u[0]`
  and `u[1]` and so accepts a longer direction, but the planar operations are modelled for
  2-D vectors only.
- Planar.ProjSize: requires `size(u) ≠ 0` for the same reason. On mismatched dimensions
  the source divides an `Error` object and gets NaN; the model returns the error.
- LinAlg.Dist: on mismatched dimensions the source takes `Math.sqrt` of an `Error` object,
  which is NaN. The model returns the error instead.
- Collide.CircleCircle: at centre distance 0 the source divides by zero and applies NaN
  forces. The model applies no force there.
- Bodies.NewCircle: a falsy stiffness `k` leaves `k` undefined in the source, and every
  later collision force that reads it (src/Assets/Physic2d.js:169-170 and 211-213) is NaN;
  gravity does not read `k`. Such circles are excluded by a precondition rather than modelled.
- Planar.RotScalesSizeSqr: norm preservation holds only where `Math.cos` and `Math.sin`
  satisfy `cos² + sin² = 1`. Trigonometry and `Math.sqrt` are uninterpreted; `SqrtAt`
  states the square-root property pointwise where a lemma needs it.
- `angle()` (`Math.atan2`) and `Mass.momentum()` are not modelled. No operation of the
  core uses them.
- A plain `Mass` has no bounding box. Its `undefined` fields make every comparison of
  the broad phase false, so `collision` falls through to a dispatch that ignores it. The
  model states that outcome directly.
- Object aliasing is not modelled: vertex 0 is the same object as `p`, and `mul` mutates
  an axis vector in place. With value semantics neither is observable by the core.
- The state of the other bodies after a throw in mid-`collisionAll` is not modelled. The
  pass returns `Err(TypeError)` and the tick is abandoned, as the exception would
  abandon the driver's `update`.
- Malformed matrices (an entry count other than `n·m`) are excluded by `WellShaped`. Every
  matrix the engine builds is 2×2 with four entries.
- The React page, the resize listener, the `setTimeout` animation loop and
  `src/Assets/Functions.js` (random placement and delays) are not part of this model.
  Only the driver's tick order is reproduced, as `World.Step`.

=== FILE: bodies.dfy ===
/** The body model of `src/Assets/Physic2d.js`: `Dot` (id and position), `Mass` (velocity,
    acceleration, mass, integration), `Circle` (radius, stiffness, bounding box) and
    `FixedRectangle` (oriented extent, four vertices, bounding box).

    The class chain becomes one datatype with a variant per concrete class. A body is a
    value: the JavaScript methods that mutate a body are functions returning its new state.
    The process-wide `Dot.dotCnt` counter is threaded through the constructors explicitly. */
module Bodies {
  import opened Results
  import opened LinAlg
  import opened Scan

  /** An axis-aligned bounding box (`minX`, `minY`, `maxX`, `maxY`). */
  datatype Box = Box(minX: real, minY: real, maxX: real, maxY: real)

  datatype Body =
    | Mass(id: nat, p: Vector, v: Vector, a: Vector, m: real)
    | Circle(id: nat, p: Vector, v: Vector, a: Vector, m: real, radius: real, k: real, box: Box)
    | FixedRect(id: nat, p: Vector, w: real, h: real, angle: real, sin: real, cos: real,
                vertices: seq<Vector>, box: Box)

  /** The `movable` flag: set by `Mass` (and so `Circle`), cleared by `FixedRectangle`. */
  predicate Movable(b: Body) {
    !b.FixedRect?
  }

  /** The `type` tag: `TYPE.MASS`, `TYPE.CIRCLE` or `TYPE.FIXEDRECT`. */
  function TypeTag(b: Body): int {
    match b
    case Mass(_, _, _, _, _) => 0
    case Circle(_, _, _, _, _, _, _, _) => 1
    case FixedRect(_, _, _, _, _, _, _, _, _) => 3
  }

  // ---------------------------------------------------------------- geometry

  /** `updateHitbox()`: the square of half-side `radius` centred on `p`. */
  function Hitbox(p: Vector, radius: real): (box: Box)
    requires |p| == 2
    ensures box.minX + box.maxX == 2.0 * p[0] && box.minY + box.maxY == 2.0 * p[1]
    ensures box.maxX - box.minX == 2.0 * radius && box.maxY - box.minY == 2.0 * radius
  {
    Box(p[0] - radius, p[1] - radius, p[0] + radius, p[1] + radius)
  }

  /** The four corners the rectangle constructor builds from its anchor `p` and the edge
      vectors `e1 = w·(cos, sin)` and `e2 = h·(−sin, cos)`: `p`, `p + e1`, `p + e1 + e2`,
      `p + e2`, each made by `copy` and `add` without a coefficient. */
  function RectVertices(p: Vector, w: real, h: real, sin: real, cos: real): seq<Vector> {
    var e1 := [w * cos, w * sin];
    var e2 := [-h * sin, h * cos];
    [ p,
      AddTo(Copy(p), e1, None),
      AddTo(AddTo(Copy(p), e1, None), e2, None),
      AddTo(Copy(p), e2, None) ]
  }

  /** Coordinate `axis` of every vertex. */
  function Coords(vertices: seq<Vector>, axis: nat): (r: seq<real>)
    requires forall t :: 0 <= t < |vertices| ==> axis < |vertices[t]|
    ensures |r| == |vertices|
    ensures forall t :: 0 <= t < |vertices| ==> r[t] == vertices[t][axis]
  {
    seq(|vertices|, t requires 0 <= t < |vertices| => vertices[t][axis])
  }

  /** The constructor's `Math.min`/`Math.max` fold over the vertices, started at `(x, y)`. */
  function VertexBox(vertices: seq<Vector>, x: real, y: real): Box
    requires forall t :: 0 <= t < |vertices| ==> |vertices[t]| == 2
  {
    var xs, ys := Coords(vertices, 0), Coords(vertices, 1);
    Box(MinFrom(xs, x), MinFrom(ys, y), MaxFrom(xs, x), MaxFrom(ys, y))
  }

  /** The rectangle's vertices, coordinate by coordinate. */
  lemma RectVerticesExplicit(x: real, y: real, w: real, h: real, sin: real, cos: real)
    ensures var vs := RectVertices([x, y], w, h, sin, cos);
      && |vs| == 4
      && vs[0] == [x, y]
      && vs[1] == [x + w * cos, y + w * sin]
      && vs[2] == [x + w * cos - h * sin, y + w * sin + h * cos]
      && vs[3] == [x - h * sin, y + h * cos]
  {
    var p := [x, y];
    CopyExactIffNotOneDim(p);
    var vs := RectVertices(p, w, h, sin, cos);
    assert vs[1] == [x + w * cos, y + w * sin];
    assert vs[2] == [x + w * cos - h * sin, y + w * sin + h * cos];
    assert vs[3] == [x - h * sin, y + h * cos];
  }

  /** Four corners, each a 2-D vector. */
  lemma RectVerticesDims(x: real, y: real, w: real, h: real, sin: real, cos: real)
    ensures var vs := RectVertices([x, y], w, h, sin, cos);
      |vs| == 4 && forall t :: 0 <= t < 4 ==> |vs[t]| == 2
  {
    RectVerticesExplicit(x, y, w, h, sin, cos);
  }

  // ---------------------------------------------------------------- well-formedness

  /** What every body the constructors build satisfies and the engine relies on: 2-D
      vectors, a non-zero mass for `1 / m`, a circle's box centred on it, and four 2-D
      vertices for a rectangle. */
  predicate WellFormed(b: Body) {
    && |b.p| == 2
    && match b
       case Mass(_, _, v, a, m) => |v| == 2 && |a| == 2 && m != 0.0
       case Circle(_, p, v, a, m, radius, _, box) =>
         |v| == 2 && |a| == 2 && m != 0.0 && box == Hitbox(p, radius)
       case FixedRect(_, _, _, _, _, _, _, vertices, _) =>
         |vertices| == 4 && forall t :: 0 <= t < 4 ==> |vertices[t]| == 2
  }

  // ---------------------------------------------------------------- constructors

  /** `new Mass(x, y, vx, vy, m)` with `Dot.dotCnt == cnt`: the body takes `cnt` as its id
      and the counter moves on to `cnt + 1`; it starts with zero acceleration. */
  function NewMass(cnt: nat, x: real, y: real, vx: real, vy: real, m: real): (r: (Body, nat))
    ensures r.0.Mass? && r.0.id == cnt && r.1 == cnt + 1
    ensures r.0.p == [x, y] && r.0.v == [vx, vy] && r.0.a == [0.0, 0.0] && r.0.m == m
    ensures m != 0.0 ==> WellFormed(r.0)
  {
    (Mass(cnt, [x, y], [vx, vy], [0.0, 0.0], m), cnt + 1)
  }

  /** `new Circle(x, y, vx, vy, m, radius, k)`: a mass with a radius, a stiffness and a box
      around its centre. A falsy `k` would leave the stiffness undefined (NaN forces), so
      it is excluded. */
  function NewCircle(cnt: nat, x: real, y: real, vx: real, vy: real, m: real, radius: real, k: real): (r: (Body, nat))
    requires k != 0.0
    ensures r.0.Circle? && r.0.id == cnt && r.1 == cnt + 1
    ensures r.0.p == [x, y] && r.0.v == [vx, vy] && r.0.a == [0.0, 0.0]
    ensures r.0.m == m && r.0.radius == radius && r.0.k == k
    ensures r.0.box == Box(x - radius, y - radius, x + radius, y + radius)
    ensures m != 0.0 ==> WellFormed(r.0)
  {
    var (mass, next) := NewMass(cnt, x, y, vx, vy, m);
    var p := [x, y];
    (Circle(mass.id, mass.p, mass.v, mass.a, m, radius, k, Hitbox(p, radius)), next)
  }

  /** `new FixedRectangle(x, y, w, h, angle)`: vertices from the rotated edges, box folded
      over the vertices from the anchor point. `Math.sin`/`Math.cos` come from `fns`. */
  function NewFixedRect(fns: MathFns, cnt: nat, x: real, y: real, w: real, h: real, angle: real): (r: (Body, nat))
    ensures r.0.FixedRect? && r.0.id == cnt && r.1 == cnt + 1
    ensures r.0.p == [x, y] && r.0.w == w && r.0.h == h && r.0.angle == angle
    ensures r.0.sin == fns.sin(angle) && r.0.cos == fns.cos(angle)
    ensures WellFormed(r.0)
  {
    var p := [x, y];
    var s, c := fns.sin(angle), fns.cos(angle);
    var vertices := RectVertices(p, w, h, s, c);
    RectVerticesDims(x, y, w, h, s, c);
    (FixedRect(cnt, p, w, h, angle, s, c, vertices, VertexBox(vertices, x, y)), cnt + 1)
  }

  /** Opposite corners of the rectangle have the same midpoint:
      `vertex0 + vertex2 == vertex1 + vertex3`. */
  lemma RectIsParallelogram(fns: MathFns, cnt: nat, x: real, y: real, w: real, h: real, angle: real)
    ensures var b := NewFixedRect(fns, cnt, x, y, w, h, angle).0;
      forall c :: 0 <= c < 2 ==>
      b.vertices[0][c] + b.vertices[2][c] == b.vertices[1][c] + b.vertices[3][c]
  {
    RectVerticesExplicit(x, y, w, h, fns.sin(angle), fns.cos(angle));
  }

  /** The rectangle's box contains all four vertices, and each of its bounds is the
      coordinate of some vertex. */
  lemma RectBoxIsTight(fns: MathFns, cnt: nat, x: real, y: real, w: real, h: real, angle: real)
    ensures var b := NewFixedRect(fns, cnt, x, y, w, h, angle).0;
      forall t :: 0 <= t < 4 ==>
        && b.box.minX <= b.vertices[t][0] <= b.box.maxX
        && b.box.minY <= b.vertices[t][1] <= b.box.maxY
    ensures var b := NewFixedRect(fns, cnt, x, y, w, h, angle).0;
      && (exists t :: 0 <= t < 4 && b.box.minX == b.vertices[t][0])
      && (exists t :: 0 <= t < 4 && b.box.maxX == b.vertices[t][0])
      && (exists t :: 0 <= t < 4 && b.box.minY == b.vertices[t][1])
      && (exists t :: 0 <= t < 4 && b.box.maxY == b.vertices[t][1])
  {
    var b := NewFixedRect(fns, cnt, x, y, w, h, angle).0;
    RectVerticesExplicit(x, y, w, h, fns.sin(angle), fns.cos(angle));
    var xs, ys := Coords(b.vertices, 0), Coords(b.vertices, 1);
    // the fold starts from the anchor, which is vertex 0
    assert xs[0] == b.p[0] && ys[0] == b.p[1];
  }

  // ---------------------------------------------------------------- dynamics

  /** `force(f)`: `a.add(f, 1 / m)`; nothing but the acceleration changes. */
  function Force(b: Body, f: Vector): (r: Body)
    requires Movable(b) && b.m != 0.0
    ensures Movable(r) && r == b.(a := r.a)
    ensures |r.a| == |b.a|
    ensures |f| == |b.a| ==> forall i :: 0 <= i < |f| ==> b.m * (r.a[i] - b.a[i]) == f[i]
    ensures |f| != |b.a| ==> r == b
  {
    var r := b.(a := AddTo(b.a, f, Some(1.0 / b.m)));
    assert |f| == |b.a| ==> forall i :: 0 <= i < |f| ==> b.m * (r.a[i] - b.a[i]) == f[i] by {
      if |f| == |b.a| {
        forall i | 0 <= i < |f|
          ensures b.m * (r.a[i] - b.a[i]) == f[i]
        {
          assert r.a[i] - b.a[i] == (1.0 / b.m) * f[i];
        }
      }
    }
    r
  }

  /** One component of `Force`, for proofs that need the change of a single coordinate. */
  lemma ForceComponent(b: Body, f: Vector, i: nat)
    requires Movable(b) && b.m != 0.0
    requires |f| == |b.a| && i < |f|
    ensures b.m * (Force(b, f).a[i] - b.a[i]) == f[i]
  {
  }

  /** Both coordinates of `Force` on a 2-D body. */
  lemma ForceComponents2(b: Body, f: Vector)
    requires Movable(b) && b.m != 0.0
    requires |f| == |b.a| == 2
    ensures b.m * (Force(b, f).a[0] - b.a[0]) == f[0]
    ensures b.m * (Force(b, f).a[1] - b.a[1]) == f[1]
  {
    ForceComponent(b, f, 0);
    ForceComponent(b, f, 1);
  }

  /** One coordinate of `Force`, written as the update `a[i] + f[i] / m` performs it. */
  lemma ForceAt(b: Body, f: Vector, i: nat)
    requires Movable(b) && b.m != 0.0
    requires |f| == |b.a| && i < |f|
    ensures Force(b, f).a[i] == b.a[i] + (1.0 / b.m) * f[i]
  {
    var c := 1.0 / b.m;
    assert c != 0.0 by {
      assert c * b.m == 1.0;
    }
    assert Coefficient(Some(c)) == c;
  }

  /** Forces applied one after the other superpose: applying `f1` then `f2` is applying
      their sum once. */
  lemma ForceSuperposes(b: Body, f1: Vector, f2: Vector)
    requires Movable(b) && b.m != 0.0
    requires |f1| == |b.a| && |f2| == |b.a|
    ensures Force(Force(b, f1), f2) == Force(b, AddTo(f1, f2, None))
  {
    var c := 1.0 / b.m;
    var mid, sum := Force(b, f1), AddTo(f1, f2, None);
    var lhs, rhs := Force(mid, f2), Force(b, sum);
    assert |sum| == |b.a|;
    forall i | 0 <= i < |b.a|
      ensures lhs.a[i] == rhs.a[i]
    {
      ForceAt(b, f1, i);
      ForceAt(mid, f2, i);
      ForceAt(b, sum, i);
      assert sum[i] == f1[i] + 1.0 * f2[i];
      Distribute(b.a[i], c, f1[i], f2[i]);
    }
    assert lhs.a == rhs.a;
  }

  lemma Distribute(a: real, c: real, x: real, y: real)
    ensures (a + c * x) + c * y == a + c * (x + 1.0 * y)
  {
  }

  /** `move(dt)`: `v.add(a, dt)`, then `p.add(v, dt)` with the NEW velocity, then
      `a.init(2)`; a circle then refreshes its box (`Circle.move`). */
  function Move(b: Body, dt: real): (r: Body)
    requires Movable(b) && WellFormed(b)
    ensures WellFormed(r) && Movable(r) && r.id == b.id && r.m == b.m
    ensures r.a == [0.0, 0.0]
    ensures b.Mass? ==> r == Mass(b.id, r.p, r.v, r.a, b.m)
    ensures b.Circle? ==> r == Circle(b.id, r.p, r.v, r.a, b.m, b.radius, b.k, Hitbox(r.p, b.radius))
  {
    var v := AddTo(b.v, b.a, Some(dt));
    var p := AddTo(b.p, v, Some(dt));
    var a := Init([2.0]);
    assert LoopCount(2.0) == 2;
    assert a == Zeros(2) == [0.0, 0.0];
    if b.Circle? then Circle(b.id, p, v, a, b.m, b.radius, b.k, Hitbox(p, b.radius))
    else Mass(b.id, p, v, a, b.m)
  }

  /** Semi-implicit Euler: for a non-zero step the velocity advances by `a·dt` first, and
      the position by the NEW velocity times `dt`. */
  lemma MoveIsSemiImplicitEuler(b: Body, dt: real)
    requires Movable(b) && WellFormed(b)
    requires dt != 0.0
    ensures Move(b, dt).v == [b.v[0] + b.a[0] * dt, b.v[1] + b.a[1] * dt]
    ensures var r := Move(b, dt); |r.p| == 2 && r.p[0] == b.p[0] + r.v[0] * dt && r.p[1] == b.p[1] + r.v[1] * dt
  {
    var r := Move(b, dt);
    assert Add(b.v, b.a, Some(dt)).Ok? && |r.v| == 2;
    assert r.v[0] == b.v[0] + dt * b.a[0] && r.v[1] == b.v[1] + dt * b.a[1];
    assert Add(b.p, r.v, Some(dt)).Ok? && |r.p| == 2;
    assert r.p[0] == b.p[0] + dt * r.v[0] && r.p[1] == b.p[1] + dt * r.v[1];
    assert r.v == [b.v[0] + b.a[0] * dt, b.v[1] + b.a[1] * dt];
    assert r.p == [b.p[0] + r.v[0] * dt, b.p[1] + r.v[1] * dt];
    assert r == Move(b, dt);
  }

  /** A zero step is not a no-op: `add(v, 0)` adds with coefficient 1, so `move(0)` adds
      the acceleration to the velocity and that velocity to the position. */
  lemma MoveZeroStepQuirk(b: Body)
    requires Movable(b) && WellFormed(b)
    ensures var r := Move(b, 0.0);
      && r.v == [b.v[0] + b.a[0], b.v[1] + b.a[1]]
      && r.p == [b.p[0] + r.v[0], b.p[1] + r.v[1]]
  {
    var r := Move(b, 0.0);
    assert Add(b.v, b.a, Some(0.0)).Ok? && |r.v| == 2;
    assert Add(b.p, r.v, Some(0.0)).Ok? && |r.p| == 2;
    assert r.v == [b.v[0] + b.a[0], b.v[1] + b.a[1]];
    assert r.p == [b.p[0] + r.v[0], b.p[1] + r.v[1]];
  }
}

=== FILE: collide.dfy ===
/** The pairwise collision routines of `System` in `src/Assets/Physic2d.js`: the signed
    interval gap used by both phases, the circle–circle penalty spring, and the
    three-axis separating-axis test between a circle and a fixed rectangle. */
module Collide {
  import opened Results
  import opened LinAlg
  import opened Scan
  import opened Bodies
  import opened Planar

  /** The `999999999` the source starts its running minima (and, negated, maxima) from. */
  const Sentinel: real := 999999999.0

  // ---------------------------------------------------------------- interval gap

  /** Static `intervalDist`: the signed gap between `[min1, max1]` and `[min2, max2]`,
      measured from the interval that starts first. */
  function IntervalDist(min1: real, max1: real, min2: real, max2: real): real {
    if min1 < min2 then min2 - max1 else min1 - max2
  }

  /** For proper intervals the gap is positive exactly when they are disjoint. */
  lemma IntervalDistPositiveIffDisjoint(min1: real, max1: real, min2: real, max2: real)
    requires min1 <= max1 && min2 <= max2
    ensures IntervalDist(min1, max1, min2, max2) > 0.0 <==> max1 < min2 || max2 < min1
  {
  }

  /** Whether two proper intervals are separated does not depend on their order. */
  lemma IntervalDistSignSymmetric(min1: real, max1: real, min2: real, max2: real)
    requires min1 <= max1 && min2 <= max2
    ensures IntervalDist(min1, max1, min2, max2) > 0.0 <==> IntervalDist(min2, max2, min1, max1) > 0.0
  {
    IntervalDistPositiveIffDisjoint(min1, max1, min2, max2);
    IntervalDistPositiveIffDisjoint(min2, max2, min1, max1);
  }

  // ---------------------------------------------------------------- circle–circle

  /** The distance `CircleCircleCollision` computes with `Vector.dist`; two well-formed
      circles have 2-D centres, so it never fails. */
  function CentreDist(fns: MathFns, c1: Body, c2: Body): real
    requires c1.Circle? && c2.Circle? && WellFormed(c1) && WellFormed(c2)
  {
    Dist(fns, c1.p, c2.p).value
  }

  /** The factor `k·(dist − (r1 + r2)) / dist` that scales `p2 − p1`, with `k` the mean
      of the two stiffnesses. */
  function SpringFactor(fns: MathFns, c1: Body, c2: Body): real
    requires c1.Circle? && c2.Circle? && WellFormed(c1) && WellFormed(c2)
    requires CentreDist(fns, c1, c2) != 0.0
  {
    var dist := CentreDist(fns, c1, c2);
    (c1.k + c2.k) / 2.0 * (dist - (c1.radius + c2.radius)) / dist
  }

  /** The force on the first circle: `sub(p2, p1).mul(factor)`. */
  function SpringForce(fns: MathFns, c1: Body, c2: Body): (f: Vector)
    requires c1.Circle? && c2.Circle? && WellFormed(c1) && WellFormed(c2)
    requires CentreDist(fns, c1, c2) != 0.0
    ensures |f| == 2
  {
    SubIsDifference(c2.p, c1.p);
    Mul(Sub(c2.p, c1.p), SpringFactor(fns, c1, c2))
  }

  /** `CircleCircleCollision(c1, c2)`. Farther apart than the sum of the radii: nothing
      happens. Otherwise the first circle receives the spring force and the second its
      negation. Only accelerations change. At distance 0 the source divides by zero; no
      force is applied there. */
  function CircleCircle(fns: MathFns, c1: Body, c2: Body): (r: (Body, Body))
    requires c1.Circle? && c2.Circle? && WellFormed(c1) && WellFormed(c2)
    ensures r.0.Circle? && r.1.Circle?
    ensures r.0 == c1.(a := r.0.a) && r.1 == c2.(a := r.1.a)
    ensures |r.0.a| == 2 && |r.1.a| == 2
    ensures CentreDist(fns, c1, c2) > c1.radius + c2.radius ==> r == (c1, c2)
    ensures CentreDist(fns, c1, c2) == 0.0 ==> r == (c1, c2)
  {
    var dist := CentreDist(fns, c1, c2);
    if dist > c1.radius + c2.radius || dist == 0.0 then
      (c1, c2)
    else
      var f := SpringForce(fns, c1, c2);
      (Force(c1, f), Force(c2, Mul(f, -1.0)))
  }

  /** The changes of acceleration from `b1` to `r1` and from `b2` to `r2`, weighted by the
      masses, cancel in both coordinates: the two bodies received equal and opposite
      forces. */
  predicate MomentumBalanced(b1: Body, r1: Body, b2: Body, r2: Body)
    requires Movable(b1) && Movable(r1) && Movable(b2) && Movable(r2)
    requires |b1.a| == 2 && |r1.a| == 2 && |b2.a| == 2 && |r2.a| == 2
  {
    && b1.m * (r1.a[0] - b1.a[0]) + b2.m * (r2.a[0] - b2.a[0]) == 0.0
    && b1.m * (r1.a[1] - b1.a[1]) + b2.m * (r2.a[1] - b2.a[1]) == 0.0
  }

  /** In contact, the first circle's momentum changes by the spring force and the second's
      by its negation. */
  lemma CircleCircleContact(fns: MathFns, c1: Body, c2: Body)
    requires c1.Circle? && c2.Circle? && WellFormed(c1) && WellFormed(c2)
    requires 0.0 != CentreDist(fns, c1, c2) <= c1.radius + c2.radius
    ensures var r, f := CircleCircle(fns, c1, c2), SpringForce(fns, c1, c2);
      && c1.m * (r.0.a[0] - c1.a[0]) == f[0] && c1.m * (r.0.a[1] - c1.a[1]) == f[1]
      && c2.m * (r.1.a[0] - c2.a[0]) == -f[0] && c2.m * (r.1.a[1] - c2.a[1]) == -f[1]
  {
    var f := SpringForce(fns, c1, c2);
    var g := Mul(f, -1.0);
    assert CircleCircle(fns, c1, c2) == (Force(c1, f), Force(c2, g));
    ForceComponents2(c1, f);
    ForceComponents2(c2, g);
    assert g[0] == -f[0] && g[1] == -f[1];
  }

  /** Whatever the distance, the momentum changes of the two circles cancel exactly. */
  lemma CircleCircleEqualAndOpposite(fns: MathFns, c1: Body, c2: Body)
    requires c1.Circle? && c2.Circle? && WellFormed(c1) && WellFormed(c2)
    ensures MomentumBalanced(c1, CircleCircle(fns, c1, c2).0, c2, CircleCircle(fns, c1, c2).1)
  {
    var d := CentreDist(fns, c1, c2);
    if 0.0 != d <= c1.radius + c2.radius {
      CircleCircleContact(fns, c1, c2);
    }
  }

  /** With a true square root, the spring force has magnitude `|k·(dist − (r1 + r2))|`:
      the spring's stiffness times how far the circles interpenetrate. */
  lemma SpringForceMagnitude(fns: MathFns, c1: Body, c2: Body)
    requires c1.Circle? && c2.Circle? && WellFormed(c1) && WellFormed(c2)
    requires SqrtAt(fns, DistSqrOf(c1.p, c2.p))
    requires CentreDist(fns, c1, c2) != 0.0
    ensures var d, k := CentreDist(fns, c1, c2), (c1.k + c2.k) / 2.0;
      SizeSqr(SpringForce(fns, c1, c2)) == (k * (d - (c1.radius + c2.radius))) * (k * (d - (c1.radius + c2.radius)))
  {
    var d, k := CentreDist(fns, c1, c2), (c1.k + c2.k) / 2.0;
    var e := k * (d - (c1.radius + c2.radius));
    var diff := Sub(c2.p, c1.p);
    SubIsDifference(c2.p, c1.p);
    SizeSqrOfMul(diff, e / d);
    DistSqrSymmetric(c1.p, c2.p);
    assert SizeSqr(diff) == d * d;
    assert SpringFactor(fns, c1, c2) == e / d;
    calc {
      SizeSqr(SpringForce(fns, c1, c2));
      (e / d) * (e / d) * SizeSqr(diff);
      (e / d) * (e / d) * (d * d);
      e * e;
    }
  }

  /** The spring is repulsive: for circles in contact and a non-negative mean stiffness,
      where `Math.sqrt` is a square root, the force on the first circle points away from
      the second (its inner product with `p2 − p1` is not positive). */
  lemma SpringForceRepulsive(fns: MathFns, c1: Body, c2: Body)
    requires c1.Circle? && c2.Circle? && WellFormed(c1) && WellFormed(c2)
    requires SqrtAt(fns, DistSqrOf(c1.p, c2.p))
    requires 0.0 != CentreDist(fns, c1, c2) <= c1.radius + c2.radius
    requires c1.k + c2.k >= 0.0
    ensures Inner(SpringForce(fns, c1, c2), Sub(c2.p, c1.p)) <= 0.0
  {
    var d := CentreDist(fns, c1, c2);
    var diff := Sub(c2.p, c1.p);
    SubIsDifference(c2.p, c1.p);
    SizeSqrIsInnerProdSelf(diff);
    InnerMulSelf(diff, SpringFactor(fns, c1, c2));
    NonPositiveFactor((c1.k + c2.k) / 2.0, d, c1.radius + c2.radius);
  }

  /** `k·(d − s)/d ≤ 0` for `k ≥ 0` and `0 < d ≤ s`. */
  lemma NonPositiveFactor(k: real, d: real, s: real)
    requires k >= 0.0 && 0.0 < d <= s
    ensures k * (d - s) / d <= 0.0
  {
    assert k * (d - s) <= 0.0;
  }

  lemma DistSqrSymmetric(a: Vector, b: Vector)
    requires |a| == |b|
    ensures DistSqrOf(a, b) == DistSqrOf(b, a)
  {
    DistSqrUpToSymmetric(a, b, |a|);
  }

  lemma {:induction false} DistSqrUpToSymmetric(a: Vector, b: Vector, n: nat)
    requires n <= |a| && n <= |b|
    ensures DistSqrUpTo(a, b, n) == DistSqrUpTo(b, a, n)
  {
    if n > 0 {
      DistSqrUpToSymmetric(a, b, n - 1);
      assert (a[n - 1] - b[n - 1]) * (a[n - 1] - b[n - 1]) == (b[n - 1] - a[n - 1]) * (b[n - 1] - a[n - 1]);
    }
  }

  // ---------------------------------------------------------------- circle–rectangle

  /** The squared distance from the circle's centre to each vertex, in vertex order. */
  function VertexDistances(c: Body, rect: Body): (ds: seq<Option<real>>)
    requires c.Circle? && rect.FixedRect? && WellFormed(c) && WellFormed(rect)
    ensures |ds| == |rect.vertices|
    ensures forall t :: 0 <= t < |ds| ==> ds[t] == Some(DistSqrOf(c.p, rect.vertices[t]))
  {
    seq(|rect.vertices|, t requires 0 <= t < |rect.vertices| => Some(DistSqrOf(c.p, rect.vertices[t])))
  }

  /** `closeVertex`: the first vertex attaining the least squared distance below the
      sentinel; `None` leaves `closeVertex` undefined in the source. */
  function NearestVertex(c: Body, rect: Body): (r: Option<nat>)
    requires c.Circle? && rect.FixedRect? && WellFormed(c) && WellFormed(rect)
    ensures IsFirstMinBelow(VertexDistances(c, rect), Sentinel, r)
  {
    FirstMin(VertexDistances(c, rect), Sentinel)
  }

  /** The three candidate axes: the direction from the centre to the nearest vertex
      (`None` when it has zero length: NaN components in the source), then the rectangle's
      local x- and y-axes. */
  function Axes(fns: MathFns, c: Body, rect: Body, close: nat): (axes: seq<Option<Vector>>)
    requires c.Circle? && rect.FixedRect? && WellFormed(c) && WellFormed(rect)
    requires close < |rect.vertices|
    ensures |axes| == 3
    ensures forall t :: 0 <= t < 3 && axes[t].Some? ==> |axes[t].value| == 2
  {
    SubIsDifference(rect.vertices[close], c.p);
    [Dir(fns, Sub(rect.vertices[close], c.p)), Some([rect.cos, rect.sin]), Some([-rect.sin, rect.cos])]
  }

  /** What the three axes are: the first is the unit vector pointing from the centre to
      the nearest vertex wherever `Math.sqrt` is a square root of that distance; the rectangle's local axes are orthogonal and both have squared
      size `cos² + sin²`, so they are unit vectors wherever the sine and cosine of the
      angle obey the Pythagorean identity. */
  lemma AxesGeometry(fns: MathFns, c: Body, rect: Body, close: nat)
    requires c.Circle? && rect.FixedRect? && WellFormed(c) && WellFormed(rect)
    requires close < |rect.vertices|
    ensures var axes := Axes(fns, c, rect, close);
      axes[0].Some? && SqrtAt(fns, SizeSqr(Sub(rect.vertices[close], c.p))) ==>
        && SizeSqr(axes[0].value) == 1.0
        && Inner(axes[0].value, Sub(rect.vertices[close], c.p)) == Size(fns, Sub(rect.vertices[close], c.p))
    ensures var axes := Axes(fns, c, rect, close);
      && axes[1].Some? && axes[2].Some?
      && Inner(axes[1].value, axes[2].value) == 0.0
      && SizeSqr(axes[1].value) == rect.cos * rect.cos + rect.sin * rect.sin
      && SizeSqr(axes[2].value) == rect.cos * rect.cos + rect.sin * rect.sin
  {
    var axes := Axes(fns, c, rect, close);
    if axes[0].Some? && SqrtAt(fns, SizeSqr(Sub(rect.vertices[close], c.p))) {
      DirIsUnit(fns, Sub(rect.vertices[close], c.p));
    }
    var e1, e2 := [rect.cos, rect.sin], [-rect.sin, rect.cos];
    Unfold2(e1, e2);
    Unfold2(e2, e1);
    Unfold2(e1, e1);
  }

  /** The outcome on one axis: the signed gap, and whether the circle's interval starts
      below the rectangle's (`min1 < min2`), which decides the sign of the push. */
  datatype AxisTest = AxisTest(gap: real, low: bool)

  /** Project the circle as `[c·axis − r, c·axis + r]` and the rectangle as the running
      min and max of its projected vertices from the ∓999999999 sentinels. */
  function TestAxis(c: Body, rect: Body, axis: Vector): (t: AxisTest)
    requires c.Circle? && rect.FixedRect? && WellFormed(c) && WellFormed(rect)
    requires |axis| == 2
  {
    var prj1 := Inner(c.p, axis);
    var min1, max1 := prj1 - c.radius, prj1 + c.radius;
    var prj2 := seq(|rect.vertices|, t requires 0 <= t < |rect.vertices| => Inner(rect.vertices[t], axis));
    var min2, max2 := MinFrom(prj2, Sentinel), MaxFrom(prj2, -Sentinel);
    AxisTest(IntervalDist(min1, max1, min2, max2), min1 < min2)
  }

  function AxisTests(fns: MathFns, c: Body, rect: Body, close: nat): (tests: seq<Option<AxisTest>>)
    requires c.Circle? && rect.FixedRect? && WellFormed(c) && WellFormed(rect)
    requires close < |rect.vertices|
    ensures |tests| == 3
    ensures forall t :: 0 <= t < 3 ==> (tests[t].Some? <==> Axes(fns, c, rect, close)[t].Some?)
  {
    var axes := Axes(fns, c, rect, close);
    seq(3, t requires 0 <= t < 3 => if axes[t].Some? then Some(TestAxis(c, rect, axes[t].value)) else None)
  }

  /** The overlap `-gap` of every axis; a NaN axis has none. */
  function Overlaps(tests: seq<Option<AxisTest>>): (ov: seq<Option<real>>)
    ensures |ov| == |tests|
    ensures forall t :: 0 <= t < |tests| ==> ov[t] == (if tests[t].Some? then Some(-tests[t].value.gap) else None)
  {
    seq(|tests|, t requires 0 <= t < |tests| => if tests[t].Some? then Some(-tests[t].value.gap) else None)
  }

  /** Axis `t` separates the two shapes. */
  predicate Separates(tests: seq<Option<AxisTest>>, t: nat)
    requires t < |tests|
  {
    tests[t].Some? && tests[t].value.gap > 0.0
  }

  datatype SatOutcome = Separated | Overlapping(chosen: Option<nat>)

  /** The axis loop of `CircleFixedRectCollision`, resumed at axis `i` with the running
      `minOverlap` and the axis whose force is currently held: return at the first
      positive gap; otherwise keep the axis whose overlap is strictly below the running
      minimum. A NaN axis fails both comparisons and is passed over. */
  function SatLoop(tests: seq<Option<AxisTest>>, i: nat, minOverlap: real, chosen: Option<nat>): SatOutcome
    requires i <= |tests|
    decreases |tests| - i
  {
    if i == |tests| then
      Overlapping(chosen)
    else if tests[i].None? then
      SatLoop(tests, i + 1, minOverlap, chosen)
    else if tests[i].value.gap > 0.0 then
      Separated
    else if -tests[i].value.gap < minOverlap then
      SatLoop(tests, i + 1, -tests[i].value.gap, Some(i))
    else
      SatLoop(tests, i + 1, minOverlap, chosen)
  }

  lemma {:induction false} SatLoopFrom(tests: seq<Option<AxisTest>>, i: nat, best: real, w: Option<nat>)
    requires i <= |tests|
    requires IsFirstMinBelow(Overlaps(tests)[..i], Sentinel, w)
    requires best == (if w.Some? then Overlaps(tests)[w.value].value else Sentinel)
    ensures SatLoop(tests, i, best, w) ==
      if exists t :: i <= t < |tests| && Separates(tests, t) then Separated
      else Overlapping(ScanMin(Overlaps(tests), Sentinel, i, best, w))
    decreases |tests| - i
  {
    var ov := Overlaps(tests);
    if i < |tests| {
      ScanStep(ov, Sentinel, i, best, w);
      SeparatesFrom(tests, i);
      if tests[i].Some? && tests[i].value.gap > 0.0 {
        assert Separates(tests, i);
      } else if tests[i].Some? && -tests[i].value.gap < best {
        SatLoopFrom(tests, i + 1, -tests[i].value.gap, Some(i));
        assert ScanMin(ov, Sentinel, i, best, w) == ScanMin(ov, Sentinel, i + 1, -tests[i].value.gap, Some(i));
      } else {
        SatLoopFrom(tests, i + 1, best, w);
        assert ScanMin(ov, Sentinel, i, best, w) == ScanMin(ov, Sentinel, i + 1, best, w);
      }
    }
  }

  /** A separating axis from `i` on is axis `i` or one after it. */
  lemma SeparatesFrom(tests: seq<Option<AxisTest>>, i: nat)
    requires i < |tests|
    ensures (exists t :: i <= t < |tests| && Separates(tests, t)) <==>
            Separates(tests, i) || exists t :: i + 1 <= t < |tests| && Separates(tests, t)
  {
  }

  /** The axis loop either finds a separating axis, or picks the first axis of least
      overlap below the sentinel (`None` when no axis gets below it). */
  lemma SatLoopMeaning(tests: seq<Option<AxisTest>>)
    ensures SatLoop(tests, 0, Sentinel, None) ==
      if exists t :: 0 <= t < |tests| && Separates(tests, t) then Separated
      else Overlapping(FirstMin(Overlaps(tests), Sentinel))
  {
    SatLoopFrom(tests, 0, Sentinel, None);
  }

  /** The factor `∓ minOverlap · k` of the push, negative when the circle's interval starts
      below the rectangle's. */
  function PushScale(c: Body, test: AxisTest): real
    requires c.Circle?
  {
    var overlap := -test.gap;
    if test.low then -overlap * c.k else overlap * c.k
  }

  /** The push along the winning axis: `prjVec.mul(∓ minOverlap · k)`. */
  function Push(c: Body, axis: Vector, test: AxisTest): Vector
    requires c.Circle?
  {
    Mul(axis, PushScale(c, test))
  }

  /** The push opposes the overlap: with a non-negative stiffness and overlap (`gap ≤ 0`),
      a circle whose interval starts below the rectangle's is pushed against the axis, and
      otherwise along it. */
  lemma PushDirection(c: Body, axis: Vector, test: AxisTest)
    requires c.Circle?
    requires c.k >= 0.0 && test.gap <= 0.0
    ensures test.low ==> Inner(Push(c, axis, test), axis) <= 0.0
    ensures !test.low ==> Inner(Push(c, axis, test), axis) >= 0.0
  {
    InnerMulSelf(axis, PushScale(c, test));
    SizeSqrIsInnerProdSelf(axis);
    PushScaleSign(c, test);
    ScaledSign(PushScale(c, test), SizeSqr(axis));
  }

  /** The push has size `minOverlap · k` times the axis's size: the circle's
      interpenetration along the axis times its stiffness, whichever way it points. */
  lemma PushMagnitude(c: Body, axis: Vector, test: AxisTest)
    requires c.Circle?
    ensures SizeSqr(Push(c, axis, test)) == (test.gap * c.k) * (test.gap * c.k) * SizeSqr(axis)
  {
    SizeSqrOfMul(axis, PushScale(c, test));
    SquareOfSigned(test.gap * c.k, PushScale(c, test));
  }

  /** A quantity and its negation have the same square. */
  lemma SquareOfSigned(x: real, y: real)
    requires y == x || y == -x
    ensures y * y == x * x
  {
  }

  /** The sign of the push factor: not positive for a circle starting below, not negative
      otherwise. */
  lemma PushScaleSign(c: Body, test: AxisTest)
    requires c.Circle?
    requires c.k >= 0.0 && test.gap <= 0.0
    ensures test.low ==> PushScale(c, test) <= 0.0
    ensures !test.low ==> PushScale(c, test) >= 0.0
  {
    assert -test.gap * c.k >= 0.0;
  }

  /** A factor's sign carries over to its product with a non-negative `q`. */
  lemma ScaledSign(x: real, q: real)
    requires q >= 0.0
    ensures x <= 0.0 ==> x * q <= 0.0
    ensures x >= 0.0 ==> x * q >= 0.0
  {
  }

  /** `CircleFixedRectCollision(c, rect)`: the new state of the circle (the rectangle is
      never touched), or the `TypeError` the source throws when `closeVertex` or `force`
      is left undefined because the sentinel was never beaten. */
  function CircleRect(fns: MathFns, c: Body, rect: Body): (r: Result<Body>)
    requires c.Circle? && rect.FixedRect? && WellFormed(c) && WellFormed(rect)
    ensures r.Ok? ==> r.value.Circle? && WellFormed(r.value) && r.value == c.(a := r.value.a)
  {
    match NearestVertex(c, rect)
    case None => Err(TypeError)
    case Some(close) =>
      var axes := Axes(fns, c, rect, close);
      var tests := AxisTests(fns, c, rect, close);
      match SatLoop(tests, 0, Sentinel, None)
      case Separated => Ok(c)
      case Overlapping(None) => Err(TypeError)
      case Overlapping(Some(w)) =>
        if w < 3 && axes[w].Some? && tests[w].Some? then
          Ok(Force(c, Push(c, axes[w].value, tests[w].value)))
        else
          Err(TypeError)
  }

  /** What `CircleFixedRectCollision` does, stated without its loops: with no nearest
      vertex it throws; if any of the three axes separates the shapes the circle is left
      alone; otherwise the circle alone is pushed along the first axis of least overlap
      (below the sentinel, and overlapping: its gap is not positive), or the call throws if
      there is none. */
  lemma CircleRectOutcome(fns: MathFns, c: Body, rect: Body)
    requires c.Circle? && rect.FixedRect? && WellFormed(c) && WellFormed(rect)
    ensures NearestVertex(c, rect).None? ==> CircleRect(fns, c, rect) == Err(TypeError)
    ensures NearestVertex(c, rect).Some? ==>
      var close := NearestVertex(c, rect).value;
      var axes, tests := Axes(fns, c, rect, close), AxisTests(fns, c, rect, close);
      if exists t :: 0 <= t < 3 && Separates(tests, t) then
        CircleRect(fns, c, rect) == Ok(c)
      else
        match FirstMin(Overlaps(tests), Sentinel)
        case None => CircleRect(fns, c, rect) == Err(TypeError)
        case Some(w) =>
          && w < 3 && axes[w].Some? && tests[w].Some? && tests[w].value.gap <= 0.0
          && (forall t :: 0 <= t < w && tests[t].Some? ==> -tests[w].value.gap < -tests[t].value.gap)
          && (forall t :: w < t < 3 && tests[t].Some? ==> -tests[w].value.gap <= -tests[t].value.gap)
          && CircleRect(fns, c, rect) == Ok(Force(c, Push(c, axes[w].value, tests[w].value)))
  {
    if NearestVertex(c, rect).Some? {
      var close := NearestVertex(c, rect).value;
      var axes, tests := Axes(fns, c, rect, close), AxisTests(fns, c, rect, close);
      SatLoopMeaning(tests);
      if !exists t :: 0 <= t < 3 && Separates(tests, t) {
        var fm := FirstMin(Overlaps(tests), Sentinel);
        assert SatLoop(tests, 0, Sentinel, None) == Overlapping(fm);
        if fm.Some? {
          ChosenAxis(tests, fm.value);
          assert axes[fm.value].Some?;
          assert !Separates(tests, fm.value);
        }
      }
    }
  }

  /** The axis the scan over the overlaps picks is defined, strictly below every earlier
      overlap and at most every later one. */
  lemma ChosenAxis(tests: seq<Option<AxisTest>>, w: nat)
    requires IsFirstMinBelow(Overlaps(tests), Sentinel, Some(w))
    ensures w < |tests| && tests[w].Some?
    ensures forall t :: 0 <= t < w && tests[t].Some? ==> -tests[w].value.gap < -tests[t].value.gap
    ensures forall t :: w < t < |tests| && tests[t].Some? ==> -tests[w].value.gap <= -tests[t].value.gap
  {
    var ov := Overlaps(tests);
    forall t | 0 <= t < w && tests[t].Some?
      ensures -tests[w].value.gap < -tests[t].value.gap
    {
      assert ov[t].Some?;
    }
    forall t | w < t < |tests| && tests[t].Some?
      ensures -tests[w].value.gap <= -tests[t].value.gap
    {
      assert ov[t].Some?;
    }
  }
}

=== FILE: linalg.dfy ===
/** The linear-algebra layer of the engine (`src/Assets/Math.js`): vectors of runtime
    dimension and dense row-major matrices.

    A JavaScript `Vector` is a mutable object; here a vector is its component sequence and
    every in-place operation is a function from the receiver's old components to its new
    ones. Operations that may fail return a `Result`; the receiver's state after the call is
    recovered with `GetOr(receiver)`, because a failing call in the source leaves it untouched.
 */
module LinAlg {
  import opened Results

  type Vector = seq<real>

  /** The transcendental functions of the JavaScript `Math` object that the engine calls.
      They are left uninterpreted: a lemma that needs `Math.sqrt` to be a square root at
      some point says so with `SqrtAt`. */
  datatype MathFns = MathFns(sqrt: real -> real, sin: real -> real, cos: real -> real)

  /** `Math.sqrt` behaves as the non-negative square root at `x`. */
  predicate SqrtAt(fns: MathFns, x: real) {
    fns.sqrt(x) >= 0.0 && fns.sqrt(x) * fns.sqrt(x) == x
  }

  // ---------------------------------------------------------------- construction

  /** The number of iterations of `for (let i = 0; i < n; i++)`: the least natural number
      that is at least `n`. */
  function LoopCount(n: real): (r: nat)
    ensures n <= 0.0 ==> r == 0
    ensures n > 0.0 ==> n <= r as real < n + 1.0
  {
    if n <= 0.0 then 0 else -((-n).Floor)
  }

  function Zeros(n: nat): (r: Vector)
    ensures |r| == n
    ensures forall i :: 0 <= i < n ==> r[i] == 0.0
  {
    seq(n, _ => 0.0)
  }

  /** `init(...args)`: exactly one argument is read as a length and yields that many zeros;
      any other number of arguments becomes the components. */
  function Init(args: seq<real>): Vector {
    if |args| == 1 then Zeros(LoopCount(args[0])) else args
  }

  /** `copy()` re-runs `init` on the components, so a one-dimensional vector is mistaken
      for a length. */
  function Copy(v: Vector): Vector {
    Init(v)
  }

  /** `copy` reproduces the vector exactly when its dimension is not 1. */
  lemma CopyExactIffNotOneDim(v: Vector)
    ensures Copy(v) == v <==> |v| != 1
  {
    if |v| == 1 {
      var n := LoopCount(v[0]);
      if n == 1 {
        assert v[0] > 0.0;
        assert Copy(v)[0] == 0.0 != v[0];
      } else {
        assert |Copy(v)| == n != 1;
      }
    }
  }

  /** The 1-D defect for every input: copying `(x)` gives as many zeros as a loop up to
      `x` runs, e.g. `(3)` becomes the 3-D zero vector. */
  lemma CopyOfOneDimIsZeros(v: Vector)
    ensures |v| == 1 ==> Copy(v) == Zeros(LoopCount(v[0]))
    ensures Copy([3.0]) == [0.0, 0.0, 0.0]
  {
    assert LoopCount(3.0) == 3;
  }

  // ---------------------------------------------------------------- add / mul

  /** The coefficient `add(v, c)` really uses: `!!c` is false for an absent or zero `c`,
      and then `v` is added with coefficient 1. */
  function Coefficient(c: Option<real>): (r: real)
    ensures r != 0.0
    ensures if c == None || c == Some(0.0) then r == 1.0 else r == c.value
  {
    if c.Some? && c.value != 0.0 then c.value else 1.0
  }

  /** `add(v, c)`: fails on a dimension mismatch, otherwise the receiver's new components. */
  function Add(self: Vector, v: Vector, c: Option<real>): (r: Result<Vector>)
    ensures r.Err? <==> |self| != |v|
    ensures r.Err? ==> r.error == DimensionMismatch
    ensures r.Ok? ==> |r.value| == |self|
    ensures r.Ok? ==> forall i :: 0 <= i < |self| ==> r.value[i] == self[i] + Coefficient(c) * v[i]
  {
    if |self| != |v| then
      Err(DimensionMismatch)
    else
      var k := Coefficient(c);
      Ok(seq(|self|, i requires 0 <= i < |self| => self[i] + k * v[i]))
  }

  /** The receiver after `self.add(v, c)`, whatever the call returned. */
  function AddTo(self: Vector, v: Vector, c: Option<real>): Vector {
    Add(self, v, c).GetOr(self)
  }

  /** A dimension mismatch is reported and leaves the receiver unchanged. */
  lemma AddMismatchKeepsReceiver(self: Vector, v: Vector, c: Option<real>)
    requires |self| != |v|
    ensures Add(self, v, c) == Err(DimensionMismatch)
    ensures AddTo(self, v, c) == self
  {
  }

  /** A falsy coefficient (absent or 0) adds with coefficient 1, and in every case the
      dimension of the receiver is kept. */
  lemma AddFalsyCoefficientIsOne(self: Vector, v: Vector, c: Option<real>)
    ensures Add(self, v, Some(0.0)) == Add(self, v, None) == Add(self, v, Some(1.0))
    ensures |AddTo(self, v, c)| == |self|
  {
  }

  /** Adding `c·v` and then `(-c)·v` restores the receiver, for a truthy `c`. */
  lemma AddRoundTrip(u: Vector, v: Vector, c: real)
    requires |u| == |v|
    requires c != 0.0
    ensures AddTo(AddTo(u, v, Some(c)), v, Some(-c)) == u
  {
    var w := AddTo(u, v, Some(c));
    var back := AddTo(w, v, Some(-c));
    assert |back| == |u|;
    forall i | 0 <= i < |u|
      ensures back[i] == u[i]
    {
      assert w[i] == u[i] + c * v[i];
    }
  }

  /** `mul(c)`: every component multiplied by `c`. */
  function Mul(v: Vector, c: real): (r: Vector)
    ensures |r| == |v|
    ensures forall i :: 0 <= i < |v| ==> r[i] == v[i] * c
  {
    seq(|v|, i requires 0 <= i < |v| => v[i] * c)
  }

  /** Scaling by `c` and then by `1/c` restores the vector. */
  lemma MulRoundTrip(v: Vector, c: real)
    requires c != 0.0
    ensures Mul(Mul(v, c), 1.0 / c) == v
  {
    var w := Mul(Mul(v, c), 1.0 / c);
    forall i | 0 <= i < |v|
      ensures w[i] == v[i]
    {
      calc {
        w[i];
        (v[i] * c) * (1.0 / c);
        v[i] * (c * (1.0 / c));
        v[i];
      }
    }
  }

  // ---------------------------------------------------------------- sums

  /** Σ_{i<n} v1[i]·v2[i], accumulated left to right as the source loop does. */
  function InnerUpTo(v1: Vector, v2: Vector, n: nat): real
    requires n <= |v1| && n <= |v2|
  {
    if n == 0 then 0.0 else InnerUpTo(v1, v2, n - 1) + v1[n - 1] * v2[n - 1]
  }

  function Inner(v1: Vector, v2: Vector): real
    requires |v1| == |v2|
  {
    InnerUpTo(v1, v2, |v1|)
  }

  /** Σ_{i<n} (v1[i] − v2[i])², `Math.pow(d, 2)` being exactly `d·d` over the reals. */
  function DistSqrUpTo(v1: Vector, v2: Vector, n: nat): real
    requires n <= |v1| && n <= |v2|
  {
    if n == 0 then 0.0 else DistSqrUpTo(v1, v2, n - 1) + (v1[n - 1] - v2[n - 1]) * (v1[n - 1] - v2[n - 1])
  }

  function DistSqrOf(v1: Vector, v2: Vector): real
    requires |v1| == |v2|
  {
    DistSqrUpTo(v1, v2, |v1|)
  }

  /** Σ_{i<n} v[i]². */
  function SizeSqrUpTo(v: Vector, n: nat): real
    requires n <= |v|
  {
    if n == 0 then 0.0 else SizeSqrUpTo(v, n - 1) + v[n - 1] * v[n - 1]
  }

  /** `sizeSqr()`. */
  function SizeSqr(v: Vector): real {
    SizeSqrUpTo(v, |v|)
  }

  /** Static `innerProd`: an error on a dimension mismatch, otherwise the inner product. */
  function InnerProd(v1: Vector, v2: Vector): (r: Result<real>)
    ensures r.Err? <==> |v1| != |v2|
    ensures r.Err? ==> r.error == DimensionMismatch
  {
    if |v1| != |v2| then Err(DimensionMismatch) else Ok(Inner(v1, v2))
  }

  /** Static `distSqr`: an error on a dimension mismatch, otherwise the squared distance. */
  function DistSqr(v1: Vector, v2: Vector): (r: Result<real>)
    ensures r.Err? <==> |v1| != |v2|
    ensures r.Err? ==> r.error == DimensionMismatch
  {
    if |v1| != |v2| then Err(DimensionMismatch) else Ok(DistSqrOf(v1, v2))
  }

  /** Static `dist`: `Math.sqrt` of `distSqr`; a mismatch stays an error (NaN in the source). */
  function Dist(fns: MathFns, v1: Vector, v2: Vector): (r: Result<real>)
    ensures r.Err? <==> |v1| != |v2|
    ensures r.Ok? && SqrtAt(fns, DistSqrOf(v1, v2)) ==> r.value >= 0.0 && r.value * r.value == DistSqrOf(v1, v2)
  {
    if |v1| != |v2| then Err(DimensionMismatch) else Ok(fns.sqrt(DistSqrOf(v1, v2)))
  }

  /** `size()`. */
  function Size(fns: MathFns, v: Vector): real {
    fns.sqrt(SizeSqr(v))
  }

  /** `dir()`: the vector scaled by `1/size()`. A zero size makes every component NaN or
      infinite in the source; that outcome is `None` here. */
  function Dir(fns: MathFns, v: Vector): (r: Option<Vector>)
    ensures r.None? <==> Size(fns, v) == 0.0
    ensures r.Some? ==> |r.value| == |v|
  {
    var s := Size(fns, v);
    if s == 0.0 then None else Some(Mul(v, 1.0 / s))
  }

  /** Static `sub(v1, v2)`: a copy of `v1` to which `v2` is added with coefficient −1. The
      error of a mismatched `add` is discarded, so the (possibly wrong) copy is returned. */
  function Sub(v1: Vector, v2: Vector): Vector {
    AddTo(Copy(v1), v2, Some(-1.0))
  }

  // ---------------------------------------------------------------- laws of the sums

  lemma {:induction false} InnerUpToSymmetric(v1: Vector, v2: Vector, n: nat)
    requires n <= |v1| && n <= |v2|
    ensures InnerUpTo(v1, v2, n) == InnerUpTo(v2, v1, n)
  {
    if n > 0 {
      InnerUpToSymmetric(v1, v2, n - 1);
    }
  }

  /** `innerProd` is symmetric, including in its failure. */
  lemma InnerProdSymmetric(v1: Vector, v2: Vector)
    ensures InnerProd(v1, v2) == InnerProd(v2, v1)
  {
    if |v1| == |v2| {
      InnerUpToSymmetric(v1, v2, |v1|);
    }
  }

  lemma {:induction false} SizeSqrUpToIsInner(v: Vector, n: nat)
    requires n <= |v|
    ensures SizeSqrUpTo(v, n) == InnerUpTo(v, v, n)
    ensures SizeSqrUpTo(v, n) >= 0.0
  {
    if n > 0 {
      SizeSqrUpToIsInner(v, n - 1);
    }
  }

  /** `sizeSqr()` is non-negative and equals `innerProd(v, v)`. */
  lemma SizeSqrIsInnerProdSelf(v: Vector)
    ensures SizeSqr(v) >= 0.0
    ensures InnerProd(v, v) == Ok(SizeSqr(v))
  {
    SizeSqrUpToIsInner(v, |v|);
  }

  lemma {:induction false} DistSqrUpToLaws(v1: Vector, v2: Vector, n: nat)
    requires n <= |v1| && n <= |v2|
    ensures DistSqrUpTo(v1, v2, n) >= 0.0
    ensures v1 == v2 ==> DistSqrUpTo(v1, v2, n) == 0.0
  {
    if n > 0 {
      DistSqrUpToLaws(v1, v2, n - 1);
    }
  }

  /** `distSqr` is non-negative and `distSqr(v, v) = 0`. */
  lemma DistSqrLaws(v1: Vector, v2: Vector)
    requires |v1| == |v2|
    ensures DistSqr(v1, v2).Ok? && DistSqr(v1, v2).value >= 0.0
    ensures DistSqr(v1, v1) == Ok(0.0)
  {
    DistSqrUpToLaws(v1, v2, |v1|);
    DistSqrUpToLaws(v1, v1, |v1|);
  }

  lemma {:induction false} SizeSqrUpToMul(v: Vector, c: real, n: nat)
    requires n <= |v|
    ensures SizeSqrUpTo(Mul(v, c), n) == c * c * SizeSqrUpTo(v, n)
  {
    if n > 0 {
      SizeSqrUpToMul(v, c, n - 1);
      var w := Mul(v, c);
      assert w[n - 1] * w[n - 1] == c * c * (v[n - 1] * v[n - 1]);
    }
  }

  /** `mul(c)` scales the squared norm by `c²`. */
  lemma SizeSqrOfMul(v: Vector, c: real)
    ensures SizeSqr(Mul(v, c)) == c * c * SizeSqr(v)
  {
    SizeSqrUpToMul(v, c, |v|);
  }

  lemma {:induction false} InnerUpToMulSelf(v: Vector, s: real, n: nat)
    requires n <= |v|
    ensures InnerUpTo(Mul(v, s), v, n) == s * SizeSqrUpTo(v, n)
  {
    if n > 0 {
      InnerUpToMulSelf(v, s, n - 1);
      var w := Mul(v, s);
      assert w[n - 1] * v[n - 1] == s * (v[n - 1] * v[n - 1]);
    }
  }

  /** A vector scaled by `s` has inner product `s·sizeSqr()` with the vector itself: it
      points along the vector for `s > 0` and against it for `s < 0`. */
  lemma InnerMulSelf(v: Vector, s: real)
    ensures Inner(Mul(v, s), v) == s * SizeSqr(v)
  {
    InnerUpToMulSelf(v, s, |v|);
  }

  /** `dir()` of a vector with a proper square root yields a unit vector. */
  lemma DirIsUnit(fns: MathFns, v: Vector)
    requires SqrtAt(fns, SizeSqr(v))
    requires Dir(fns, v).Some?
    ensures SizeSqr(Dir(fns, v).value) == 1.0
    ensures Inner(Dir(fns, v).value, v) == Size(fns, v)
  {
    var s := Size(fns, v);
    SizeSqrOfMul(v, 1.0 / s);
    assert s * s == SizeSqr(v);
    calc {
      SizeSqr(Dir(fns, v).value);
      (1.0 / s) * (1.0 / s) * SizeSqr(v);
      (1.0 / s) * (1.0 / s) * (s * s);
      1.0;
    }
    InnerMulSelf(v, 1.0 / s);
    calc {
      Inner(Dir(fns, v).value, v);
      (1.0 / s) * SizeSqr(v);
      (1.0 / s) * (s * s);
      s;
    }
  }

  lemma {:induction false} SubUpToIsDist(a: Vector, b: Vector, n: nat)
    requires |a| == |b| && |a| != 1
    requires n <= |a|
    ensures SizeSqrUpTo(Sub(a, b), n) == DistSqrUpTo(a, b, n)
  {
    CopyExactIffNotOneDim(a);
    if n > 0 {
      SubUpToIsDist(a, b, n - 1);
      assert Sub(a, b)[n - 1] == a[n - 1] - b[n - 1];
    }
  }

  /** For dimensions other than 1, `sub` is componentwise subtraction and `distSqr(a, b)`
      is the squared size of `sub(a, b)`. */
  lemma SubIsDifference(a: Vector, b: Vector)
    requires |a| == |b| && |a| != 1
    ensures |Sub(a, b)| == |a|
    ensures forall i :: 0 <= i < |a| ==> Sub(a, b)[i] == a[i] - b[i]
    ensures DistSqr(a, b) == Ok(SizeSqr(Sub(a, b)))
  {
    CopyExactIffNotOneDim(a);
    SubUpToIsDist(a, b, |a|);
  }

  /** `sub(a, a)` is the zero vector of `a`'s dimension exactly when that dimension is
      not 1. */
  lemma SubSelfIsZeroIff(a: Vector)
    ensures Sub(a, a) == Zeros(|a|) <==> |a| != 1
  {
    if |a| != 1 {
      SubIsDifference(a, a);
    } else {
      var n := LoopCount(a[0]);
      if n == 1 {
        assert a[0] > 0.0;
        assert Sub(a, a)[0] == -a[0];
      } else {
        assert |Sub(a, a)| == n;
      }
    }
  }

  /** The 1-D defect of `sub(a, b)` for every input: `a` is first copied into as many
      zeros as a loop up to `a[0]` runs; `b` is subtracted only if that zero vector has
      `b`'s dimension, and otherwise the zeros come back. So `sub((2), (2))` is the 2-D
      zero vector. */
  lemma SubOfOneDim(a: Vector, b: Vector)
    ensures |a| == 1 ==>
      Sub(a, b) == if LoopCount(a[0]) == |b| then seq(|b|, i requires 0 <= i < |b| => 0.0 - b[i])
                   else Zeros(LoopCount(a[0]))
    ensures Sub([2.0], [2.0]) == [0.0, 0.0]
  {
    assert LoopCount(2.0) == 2;
  }

  // ---------------------------------------------------------------- matrices

  /** `new Matrix(n, m, ...entries)`: `n` rows, `m` columns, entries stored row-major. */
  datatype Matrix = Matrix(n: nat, m: nat, entries: seq<real>)

  predicate WellShaped(mat: Matrix) {
    |mat.entries| == mat.n * mat.m
  }

  /** The row-major index of entry (i, j) lies inside the entry storage. */
  lemma EntryIndexInRange(mat: Matrix, i: nat, j: nat)
    requires WellShaped(mat)
    requires i < mat.n && j < mat.m
    ensures 0 <= i * mat.m + j < mat.n * mat.m
  {
    assert i * mat.m + j < i * mat.m + mat.m == (i + 1) * mat.m;
    assert i + 1 <= mat.n;
    assert (i + 1) * mat.m <= mat.n * mat.m;
  }

  /** `entry(i, j)`. */
  function Entry(mat: Matrix, i: nat, j: nat): real
    requires WellShaped(mat)
    requires i < mat.n && j < mat.m
  {
    EntryIndexInRange(mat, i, j);
    mat.entries[i * mat.m + j]
  }

  /** Σ_{t<j} entry(i, t)·v[t]: row `i` applied to the first `j` components. */
  function RowSum(mat: Matrix, i: nat, v: Vector, j: nat): real
    requires WellShaped(mat)
    requires i < mat.n && j <= mat.m && j <= |v|
  {
    if j == 0 then 0.0 else RowSum(mat, i, v, j - 1) + Entry(mat, i, j - 1) * v[j - 1]
  }

  /** The matrix–vector product `linearTransform` computes: an error unless the column
      count equals the dimension, otherwise `n` components, component `i` being row `i`
      applied to the vector. */
  function Transform(mat: Matrix, v: Vector): (r: Result<Vector>)
    requires WellShaped(mat)
    ensures r.Err? <==> mat.m != |v|
    ensures r.Err? ==> r.error == DimensionMismatch
    ensures r.Ok? ==> |r.value| == mat.n
    ensures r.Ok? ==> forall i :: 0 <= i < mat.n ==> r.value[i] == RowSum(mat, i, v, mat.m)
  {
    if mat.m != |v| then
      Err(DimensionMismatch)
    else
      Ok(seq(mat.n, i requires 0 <= i < mat.n => RowSum(mat, i, v, mat.m)))
  }

  /** `linearTransform(mat)` with the source's nested loops. */
  method LinearTransform(mat: Matrix, v: Vector) returns (r: Result<Vector>)
    requires WellShaped(mat)
    ensures r == Transform(mat, v)
  {
    if mat.m != |v| {
      return Err(DimensionMismatch);
    }
    var result: seq<real> := [];
    var i := 0;
    while i < mat.n
      invariant 0 <= i <= mat.n
      invariant |result| == i
      invariant forall t :: 0 <= t < i ==> result[t] == RowSum(mat, t, v, mat.m)
    {
      result := result + [0.0];
      var j := 0;
      while j < mat.m
        invariant 0 <= j <= mat.m
        invariant |result| == i + 1
        invariant forall t :: 0 <= t < i ==> result[t] == RowSum(mat, t, v, mat.m)
        invariant result[i] == RowSum(mat, i, v, j)
      {
        result := result[i := result[i] + Entry(mat, i, j) * v[j]];
        j := j + 1;
      }
      i := i + 1;
    }
    assert result == Transform(mat, v).value;
    r := Ok(result);
  }

  /** The receiver after `linearTransform(mat)`: unchanged on a mismatch. */
  lemma TransformMismatchKeepsVector(mat: Matrix, v: Vector)
    requires WellShaped(mat)
    requires mat.m != |v|
    ensures Transform(mat, v).GetOr(v) == v
  {
  }
}

=== FILE: planar.dfy ===
/** The planar extension that `src/Assets/Physic2d.js` grafts onto `Vector`: rotation,
    projection onto a direction, and the signed length of that projection. All three are
    built on `linearTransform` or `innerProd` and are meant for 2-D vectors only. */
module Planar {
  import opened Results
  import opened LinAlg

  /** Two-dimensional vectors spelled out: the sums of the linear-algebra layer unfold to
      their two terms. */
  lemma Unfold2(v: Vector, u: Vector)
    requires |v| == 2 && |u| == 2
    ensures Inner(v, u) == v[0] * u[0] + v[1] * u[1]
    ensures SizeSqr(v) == v[0] * v[0] + v[1] * v[1]
    ensures DistSqrOf(v, u) == (v[0] - u[0]) * (v[0] - u[0]) + (v[1] - u[1]) * (v[1] - u[1])
  {
    assert InnerUpTo(v, u, 1) == v[0] * u[0];
    assert SizeSqrUpTo(v, 1) == v[0] * v[0];
    assert DistSqrUpTo(v, u, 1) == (v[0] - u[0]) * (v[0] - u[0]);
  }

  /** Row `i` of a 2×2 matrix applied to a 2-D vector. */
  lemma RowSum2(mat: Matrix, i: nat, v: Vector)
    requires WellShaped(mat) && mat.n == 2 && mat.m == 2
    requires i < 2 && |v| == 2
    ensures RowSum(mat, i, v, 2) == mat.entries[2 * i] * v[0] + mat.entries[2 * i + 1] * v[1]
  {
    assert RowSum(mat, i, v, 1) == Entry(mat, i, 0) * v[0];
  }

  /** `[[c, −s], [s, c]]`, the matrix `rot` builds from `Math.cos`/`Math.sin` of the angle. */
  function RotationMatrix(c: real, s: real): (mat: Matrix)
    ensures WellShaped(mat) && mat.n == 2 && mat.m == 2
  {
    Matrix(2, 2, [c, -s, s, c])
  }

  /** `rot(angle)`: fails unless the vector is 2-D, otherwise the vector turned by the
      rotation matrix of the angle. */
  function Rot(fns: MathFns, v: Vector, angle: real): (r: Result<Vector>)
    ensures r.Err? <==> |v| != 2
    ensures r.Err? ==> r.error == DimensionMismatch
    ensures r.Ok? ==> r.value == [fns.cos(angle) * v[0] - fns.sin(angle) * v[1],
                                  fns.sin(angle) * v[0] + fns.cos(angle) * v[1]]
  {
    var mat := RotationMatrix(fns.cos(angle), fns.sin(angle));
    var r := Transform(mat, v);
    if r.Ok? then
      RowSum2(mat, 0, v);
      RowSum2(mat, 1, v);
      assert |r.value| == 2;
      assert r.value[0] == fns.cos(angle) * v[0] - fns.sin(angle) * v[1];
      assert r.value[1] == fns.sin(angle) * v[0] + fns.cos(angle) * v[1];
      assert r.value == [fns.cos(angle) * v[0] - fns.sin(angle) * v[1],
                         fns.sin(angle) * v[0] + fns.cos(angle) * v[1]];
      r
    else
      r
  }

  /** Rotation multiplies the squared norm by `cos² + sin²`; it preserves the norm whenever
      `Math.cos` and `Math.sin` satisfy the Pythagorean identity at the angle. */
  lemma RotScalesSizeSqr(fns: MathFns, v: Vector, angle: real)
    requires |v| == 2
    ensures var c, s := fns.cos(angle), fns.sin(angle);
            SizeSqr(Rot(fns, v, angle).value) == (c * c + s * s) * SizeSqr(v)
  {
    var c, s := fns.cos(angle), fns.sin(angle);
    var w := Rot(fns, v, angle).value;
    Unfold2(w, w);
    Unfold2(v, v);
    var x, y := v[0], v[1];
    calc {
      SizeSqr(w);
      (c * x - s * y) * (c * x - s * y) + (s * x + c * y) * (s * x + c * y);
      (c * c + s * s) * (x * x + y * y);
    }
  }

  /** The rank-one matrix `u uᵀ` that `proj(u)` builds. */
  function ProjectorMatrix(u: Vector): (mat: Matrix)
    requires |u| == 2
    ensures WellShaped(mat) && mat.n == 2 && mat.m == 2
  {
    Matrix(2, 2, [u[0] * u[0], u[0] * u[1], u[0] * u[1], u[1] * u[1]])
  }

  /** `proj(u)`: `linearTransform` by `u uᵀ`, then `mul(1 / (x² + y²))`. On a non-2-D
      receiver the transform returns an Error object, and calling `mul` on it throws. */
  function Proj(v: Vector, u: Vector): (r: Result<Vector>)
    requires |u| == 2
    requires SizeSqr(u) != 0.0
    ensures r.Err? <==> |v| != 2
    ensures r.Err? ==> r.error == TypeError
    ensures r.Ok? ==> r.value == Mul(u, Inner(v, u) / SizeSqr(u))
  {
    var mat := ProjectorMatrix(u);
    Unfold2(u, u);
    match Transform(mat, v)
    case Err(_) => Err(TypeError)
    case Ok(w) =>
      var q := u[0] * u[0] + u[1] * u[1];
      var r := Mul(w, 1.0 / q);
      ProjectorRows(v, u, w);
      ProjIsScaledDirection(v, u, w, r);
      Ok(r)
  }

  lemma ScaleByReciprocal(a: real, b: real, q: real)
    requires q != 0.0
    ensures (a * b) * (1.0 / q) == a * (b / q)
  {
  }

  /** The two rows of `u uᵀ` applied to `v`. */
  lemma ProjectorRows(v: Vector, u: Vector, w: Vector)
    requires |u| == 2 && |v| == 2
    requires Transform(ProjectorMatrix(u), v) == Ok(w)
    ensures |w| == 2
    ensures w[0] == (u[0] * u[0]) * v[0] + (u[0] * u[1]) * v[1]
    ensures w[1] == (u[0] * u[1]) * v[0] + (u[1] * u[1]) * v[1]
  {
    var mat := ProjectorMatrix(u);
    RowSum2(mat, 0, v);
    RowSum2(mat, 1, v);
    assert w[0] == RowSum(mat, 0, v, 2);
    assert w[1] == RowSum(mat, 1, v, 2);
  }

  lemma ProjIsScaledDirection(v: Vector, u: Vector, w: Vector, r: Vector)
    requires |u| == 2 && |v| == 2
    requires SizeSqr(u) != 0.0
    requires |w| == 2
    requires w[0] == (u[0] * u[0]) * v[0] + (u[0] * u[1]) * v[1]
    requires w[1] == (u[0] * u[1]) * v[0] + (u[1] * u[1]) * v[1]
    requires r == Mul(w, 1.0 / SizeSqr(u))
    ensures r == Mul(u, Inner(v, u) / SizeSqr(u))
  {
    var c, t := 1.0 / SizeSqr(u), Inner(v, u) / SizeSqr(u);
    Unfold2(v, u);
    RowsOverQ(v, u, w, Inner(v, u), SizeSqr(u), c, t);
    Mul2(w, c);
    Mul2(u, t);
  }

  /** `mul` on a 2-D vector, spelled out. */
  lemma Mul2(w: Vector, c: real)
    requires |w| == 2
    ensures Mul(w, c) == [w[0] * c, w[1] * c]
  {
    var m := Mul(w, c);
    assert m[0] == w[0] * c && m[1] == w[1] * c;
  }

  /** The rows of `u uᵀ v`, scaled by `c = 1/q`, are `u` scaled by `t = (v·u)/q`. */
  lemma RowsOverQ(v: Vector, u: Vector, w: Vector, ip: real, q: real, c: real, t: real)
    requires |u| == 2 && |v| == 2 && |w| == 2
    requires q != 0.0 && ip == v[0] * u[0] + v[1] * u[1] && c == 1.0 / q && t == ip / q
    requires w[0] == (u[0] * u[0]) * v[0] + (u[0] * u[1]) * v[1]
    requires w[1] == (u[0] * u[1]) * v[0] + (u[1] * u[1]) * v[1]
    ensures w[0] * c == u[0] * t && w[1] * c == u[1] * t
  {
    FactorRow0(u[0], u[1], v[0], v[1]);
    FactorRow1(u[0], u[1], v[0], v[1]);
    ScaleByReciprocal(u[0], ip, q);
    ScaleByReciprocal(u[1], ip, q);
  }

  lemma FactorRow0(a: real, b: real, x: real, y: real)
    ensures (a * a) * x + (a * b) * y == a * (x * a + y * b)
  {
  }

  lemma FactorRow1(a: real, b: real, x: real, y: real)
    ensures (a * b) * x + (b * b) * y == b * (x * a + y * b)
  {
  }

  /** Projecting twice onto the same direction is projecting once. */
  lemma ProjIdempotent(v: Vector, u: Vector)
    requires |u| == 2 && |v| == 2
    requires SizeSqr(u) != 0.0
    ensures Proj(Proj(v, u).value, u) == Proj(v, u)
  {
    var p := Proj(v, u).value;
    Unfold2(p, u);
    Unfold2(v, u);
    Unfold2(u, u);
    var q := SizeSqr(u);
    var t := Inner(v, u) / q;
    assert p == Mul(u, t);
    calc {
      Inner(p, u);
      (u[0] * t) * u[0] + (u[1] * t) * u[1];
      t * q;
      Inner(v, u);
    }
  }

  /** What is left after projecting is orthogonal to the direction. */
  lemma ProjResidualOrthogonal(v: Vector, u: Vector)
    requires |u| == 2 && |v| == 2
    requires SizeSqr(u) != 0.0
    ensures Inner(Sub(v, Proj(v, u).value), u) == 0.0
  {
    var p := Proj(v, u).value;
    var d := Sub(v, p);
    SubIsDifference(v, p);
    Unfold2(d, u);
    Unfold2(v, u);
    Unfold2(u, u);
    var q := SizeSqr(u);
    var t := Inner(v, u) / q;
    calc {
      Inner(d, u);
      (v[0] - u[0] * t) * u[0] + (v[1] - u[1] * t) * u[1];
      Inner(v, u) - t * q;
      0.0;
    }
  }

  /** `projSize(u)`: `innerProd(this, u) / u.size()`; a mismatched inner product is an
      Error value, and dividing it gives NaN. */
  function ProjSize(fns: MathFns, v: Vector, u: Vector): (r: Result<real>)
    requires Size(fns, u) != 0.0
    ensures r.Err? <==> |v| != |u|
    ensures r.Ok? ==> r.value * Size(fns, u) == Inner(v, u)
  {
    match InnerProd(v, u)
    case Err(e) => Err(e)
    case Ok(ip) => Ok(ip / Size(fns, u))
  }

  /** The signed length `projSize` reports is, squared, the squared size of `proj`. */
  lemma ProjSizeMatchesProj(fns: MathFns, v: Vector, u: Vector)
    requires |u| == 2 && |v| == 2
    requires SqrtAt(fns, SizeSqr(u))
    requires SizeSqr(u) != 0.0
    ensures Size(fns, u) != 0.0
    ensures var s := ProjSize(fns, v, u).value; s * s == SizeSqr(Proj(v, u).value)
  {
    Unfold2(u, u);
    var t := Inner(v, u) / SizeSqr(u);
    SizeSqrOfMul(u, t);
    SquaredRatio(Inner(v, u), Size(fns, u), SizeSqr(u), ProjSize(fns, v, u).value, t);
  }

  /** With `n² = q ≠ 0`: `(ip/n)² = (ip/q)²·q`. */
  lemma SquaredRatio(ip: real, n: real, q: real, s: real, t: real)
    requires n * n == q && q != 0.0 && s == ip / n && t == ip / q
    ensures s * s == t * t * q
  {
    assert n != 0.0;
    calc {
      t * t * q;
      (ip / q) * (ip / q) * q;
      ip * ip / q;
      ip * ip / (n * n);
      (ip / n) * (ip / n);
    }
  }
}

=== FILE: results.dfy ===
/** Failure-carrying values shared by the linear-algebra layer and the physics system.

    The JavaScript engine has two ways of failing:
    - the vector operations RETURN an `Error` object on a dimension mismatch (the receiver is
      left untouched and callers generally ignore the return value);
    - calling a method on `undefined` (or on an `Error` object) THROWS a `TypeError`, which
      aborts the whole tick.
 */
module Results {

  datatype Option<+T> = None | Some(value: T)

  datatype Fault =
    | DimensionMismatch  // the "diff vector dimension" Error value of Math.js
    | TypeError          // a method called on `undefined` or on an Error value

  datatype Result<+T> = Ok(value: T) | Err(error: Fault) {

    /** The value, or `default` when this is a failure. */
    function GetOr(default: T): T {
      match this
      case Ok(v) => v
      case Err(_) => default
    }
  }
}

=== FILE: scan.dfy ===
/** The running-minimum loops of `src/Assets/Physic2d.js`.

    The engine scans short lists with the same pattern: a running bound starts at a start
    value and is replaced only on a STRICT improvement. The start value is the anchor point
    for the rectangle's bounding box (a `Math.min`/`Math.max` fold), and the literal
    `999999999` (negated for a maximum) for the projected extent of a rectangle on an axis,
    the vertex nearest to a circle, and the axis of least overlap. Strictness means ties go
    to the first candidate. */
module Scan {
  import opened Results

  /** `m = init; for (x of xs) if (x < m) m = x;` — also the value of a `Math.min` fold. */
  function MinFrom(xs: seq<real>, init: real): (r: real)
    ensures r <= init
    ensures forall i :: 0 <= i < |xs| ==> r <= xs[i]
    ensures r == init || exists i :: 0 <= i < |xs| && r == xs[i]
    decreases |xs|
  {
    if |xs| == 0 then
      init
    else
      var r := MinFrom(xs[1..], if xs[0] < init then xs[0] else init);
      assert r != init && r != xs[0] ==> exists i :: 1 <= i < |xs| && r == xs[i] by {
        if r != init && r != xs[0] {
          var j :| 0 <= j < |xs[1..]| && r == xs[1..][j];
          assert r == xs[j + 1];
        }
      }
      r
  }

  /** `m = init; for (x of xs) if (m < x) m = x;` — also the value of a `Math.max` fold. */
  function MaxFrom(xs: seq<real>, init: real): (r: real)
    ensures r >= init
    ensures forall i :: 0 <= i < |xs| ==> r >= xs[i]
    ensures r == init || exists i :: 0 <= i < |xs| && r == xs[i]
    decreases |xs|
  {
    if |xs| == 0 then
      init
    else
      var r := MaxFrom(xs[1..], if init < xs[0] then xs[0] else init);
      assert r != init && r != xs[0] ==> exists i :: 1 <= i < |xs| && r == xs[i] by {
        if r != init && r != xs[0] {
          var j :| 0 <= j < |xs[1..]| && r == xs[1..][j];
          assert r == xs[j + 1];
        }
      }
      r
  }

  /** `w` is the index of the first entry attaining the least defined value, provided that
      value is below `bound`; `None` when no defined entry is below `bound`. An undefined
      entry (NaN in the source) never wins a comparison. */
  predicate IsFirstMinBelow(xs: seq<Option<real>>, bound: real, w: Option<nat>) {
    match w
    case None =>
      forall j :: 0 <= j < |xs| && xs[j].Some? ==> xs[j].value >= bound
    case Some(i) =>
      && i < |xs| && xs[i].Some? && xs[i].value < bound
      && (forall j :: 0 <= j < i && xs[j].Some? ==> xs[i].value < xs[j].value)
      && (forall j :: i < j < |xs| && xs[j].Some? ==> xs[i].value <= xs[j].value)
  }

  /** At most one index is the first minimum below a bound. */
  lemma FirstMinBelowUnique(xs: seq<Option<real>>, bound: real, w1: Option<nat>, w2: Option<nat>)
    requires IsFirstMinBelow(xs, bound, w1)
    requires IsFirstMinBelow(xs, bound, w2)
    ensures w1 == w2
  {
  }

  /** `best = bound; for (i ...) if (xs[i] < best) { best = xs[i]; w = i; }`, resumed at
      position `i` with the state `(best, w)` that the prefix produced. */
  function ScanMin(xs: seq<Option<real>>, bound: real, i: nat, best: real, w: Option<nat>): (r: Option<nat>)
    requires i <= |xs|
    requires IsFirstMinBelow(xs[..i], bound, w)
    requires best == (if w.Some? then xs[w.value].value else bound)
    ensures IsFirstMinBelow(xs, bound, r)
    decreases |xs| - i
  {
    if i == |xs| then
      assert xs[..i] == xs;
      w
    else if xs[i].Some? && xs[i].value < best then
      ScanMin(xs, bound, i + 1, xs[i].value, Some(i))
    else
      ScanMin(xs, bound, i + 1, best, w)
  }

  /** One step of the scan keeps its state the first minimum of the prefix seen so far. */
  lemma ScanStep(xs: seq<Option<real>>, bound: real, i: nat, best: real, w: Option<nat>)
    requires i < |xs|
    requires IsFirstMinBelow(xs[..i], bound, w)
    requires best == (if w.Some? then xs[w.value].value else bound)
    ensures xs[i].Some? && xs[i].value < best ==> IsFirstMinBelow(xs[..i + 1], bound, Some(i))
    ensures !(xs[i].Some? && xs[i].value < best) ==> IsFirstMinBelow(xs[..i + 1], bound, w)
  {
    assert forall j :: 0 <= j < i ==> xs[..i + 1][j] == xs[..i][j];
  }

  /** The whole scan, started from the sentinel `bound`. */
  function FirstMin(xs: seq<Option<real>>, bound: real): (r: Option<nat>)
    ensures IsFirstMinBelow(xs, bound, r)
  {
    ScanMin(xs, bound, 0, bound, None)
  }
}

=== FILE: world.dfy ===
/** `System` of `src/Assets/Physic2d.js`: a gravity constant and the list of bodies, the
    three whole-system passes (`gravityAll`, `collisionAll`, `moveAll`), the pairwise
    `collision` dispatcher, `totalEnergy`, and the tick the page driver runs:
    `gravityAll → collisionAll → moveAll(dt)`.

    A pass returns the new list of bodies. `collisionAll` can throw (see
    `Collide.CircleRect`); it then yields `Err(TypeError)` and the tick is abandoned. */
module World {
  import opened Results
  import opened LinAlg
  import opened Bodies
  import opened Planar
  import opened Collide

  datatype System = System(g: real, objects: seq<Body>)

  predicate AllWellFormed(bs: seq<Body>) {
    forall t :: 0 <= t < |bs| ==> WellFormed(bs[t])
  }

  /** `r` is the state of `b` after a pass that may only touch accelerations: a movable
      body keeps everything else, a fixed rectangle is untouched. */
  predicate OnlyAccel(b: Body, r: Body) {
    if Movable(b) then Movable(r) && r == b.(a := r.a) && |r.a| == 2 else r == b
  }

  /** `r` is a later state of the same body: same id and class, same mass, radius and
      stiffness, and a fixed rectangle never changes. */
  predicate SameBody(b: Body, r: Body) {
    && r.id == b.id && TypeTag(r) == TypeTag(b)
    && (b.FixedRect? ==> r == b)
    && (Movable(b) ==> r.m == b.m)
    && (b.Circle? ==> r.radius == b.radius && r.k == b.k)
  }

  // ---------------------------------------------------------------- building a system

  /** The arguments of one `new Mass(...)`, `new Circle(...)` or `new FixedRectangle(...)`. */
  datatype Shape =
    | MassShape(x: real, y: real, vx: real, vy: real, m: real)
    | CircleShape(x: real, y: real, vx: real, vy: real, m: real, radius: real, k: real)
    | RectShape(x: real, y: real, w: real, h: real, angle: real)

  /** What the constructors accept and what the engine needs of the result: a non-zero
      mass, and a truthy stiffness for a circle. */
  predicate ValidShape(sh: Shape) {
    match sh
    case MassShape(_, _, _, _, m) => m != 0.0
    case CircleShape(_, _, _, _, m, _, k) => m != 0.0 && k != 0.0
    case RectShape(_, _, _, _, _) => true
  }

  /** One constructor call with `Dot.dotCnt == cnt`. */
  function Construct(fns: MathFns, cnt: nat, sh: Shape): (r: (Body, nat))
    requires ValidShape(sh)
    ensures r.0.id == cnt && r.1 == cnt + 1 && WellFormed(r.0)
    ensures TypeTag(r.0) == match sh case MassShape(_, _, _, _, _) => 0
                                     case CircleShape(_, _, _, _, _, _, _) => 1
                                     case RectShape(_, _, _, _, _) => 3
  {
    match sh
    case MassShape(x, y, vx, vy, m) => NewMass(cnt, x, y, vx, vy, m)
    case CircleShape(x, y, vx, vy, m, radius, k) => NewCircle(cnt, x, y, vx, vy, m, radius, k)
    case RectShape(x, y, w, h, angle) => NewFixedRect(fns, cnt, x, y, w, h, angle)
  }

  /** The constructor calls for `shapes`, in order, starting from `Dot.dotCnt == cnt`: the
      `t`-th body takes id `cnt + t` and the counter ends at `cnt + |shapes|`. */
  function ConstructAll(fns: MathFns, cnt: nat, shapes: seq<Shape>): (r: (seq<Body>, nat))
    requires forall t :: 0 <= t < |shapes| ==> ValidShape(shapes[t])
    ensures |r.0| == |shapes| && r.1 == cnt + |shapes|
    ensures forall t :: 0 <= t < |r.0| ==> r.0[t].id == cnt + t
    ensures forall t :: 0 <= t < |r.0| ==> WellFormed(r.0[t])
    ensures forall t :: 0 <= t < |r.0| ==> r.0[t] == Construct(fns, cnt + t, shapes[t]).0
    decreases |shapes|
  {
    if |shapes| == 0 then
      ([], cnt)
    else
      var built := Construct(fns, cnt, shapes[0]);
      var rest := ConstructAll(fns, cnt + 1, shapes[1..]);
      ConsNumbered(built.0, rest.0, cnt);
      ([built.0] + rest.0, rest.1)
  }

  /** A body numbered `cnt` in front of bodies numbered from `cnt + 1` on. */
  lemma ConsNumbered(b: Body, bs: seq<Body>, cnt: nat)
    requires b.id == cnt && WellFormed(b)
    requires forall t :: 0 <= t < |bs| ==> bs[t].id == cnt + 1 + t
    requires forall t :: 0 <= t < |bs| ==> WellFormed(bs[t])
    ensures forall t :: 0 <= t < |bs| + 1 ==> ([b] + bs)[t].id == cnt + t
    ensures forall t :: 0 <= t < |bs| + 1 ==> WellFormed(([b] + bs)[t])
  {
    forall t | 0 <= t < |bs| + 1
      ensures ([b] + bs)[t].id == cnt + t && WellFormed(([b] + bs)[t])
    {
      if t > 0 {
        assert ([b] + bs)[t] == bs[t - 1];
      }
    }
  }

  /** Bodies built by one `ConstructAll` carry strictly increasing, hence pairwise
      distinct, ids. */
  lemma ConstructAllIdsIncrease(fns: MathFns, cnt: nat, shapes: seq<Shape>)
    requires forall t :: 0 <= t < |shapes| ==> ValidShape(shapes[t])
    ensures var bs := ConstructAll(fns, cnt, shapes).0;
      forall t1, t2 :: 0 <= t1 < t2 < |bs| ==> bs[t1].id < bs[t2].id
  {
  }

  /** `new System(g)` followed by `addObject` of each constructed body in turn. */
  function Populate(fns: MathFns, g: real, cnt: nat, shapes: seq<Shape>): (r: (System, nat))
    requires forall t :: 0 <= t < |shapes| ==> ValidShape(shapes[t])
    ensures r.0.g == g && r.1 == cnt + |shapes| && AllWellFormed(r.0.objects)
    ensures |r.0.objects| == |shapes|
    ensures forall t :: 0 <= t < |shapes| ==> r.0.objects[t].id == cnt + t
    ensures forall t :: 0 <= t < |shapes| ==> r.0.objects[t] == Construct(fns, cnt + t, shapes[t]).0
  {
    var (bs, next) := ConstructAll(fns, cnt, shapes);
    (System(g, bs), next)
  }

  // ---------------------------------------------------------------- gravity

  /** The gravity pass on one body: `force(new Vector(0, -m·g))` if it is movable. */
  function Gravity(b: Body, g: real): (r: Body)
    requires WellFormed(b)
    ensures WellFormed(r) && OnlyAccel(b, r)
    ensures Movable(b) ==> r.a == [b.a[0], b.a[1] - g]
  {
    if Movable(b) then
      var f := [0.0, -b.m * g];
      var r := Force(b, f);
      ForceComponent(b, f, 0);
      ForceComponent(b, f, 1);
      MulCancel(b.m, r.a[1] - b.a[1], -g);
      r
    else
      b
  }

  lemma MulCancel(m: real, x: real, y: real)
    requires m != 0.0 && m * x == m * y
    ensures x == y
  {
  }

  /** `gravityAll()`: every movable body's y-acceleration drops by exactly `g`, its
      x-acceleration and everything else stay, and fixed rectangles are untouched. */
  function GravityAll(s: System): (r: System)
    requires AllWellFormed(s.objects)
    ensures r.g == s.g && |r.objects| == |s.objects| && AllWellFormed(r.objects)
    ensures forall t :: 0 <= t < |s.objects| ==> OnlyAccel(s.objects[t], r.objects[t])
    ensures forall t :: 0 <= t < |s.objects| && Movable(s.objects[t]) ==>
      Movable(r.objects[t]) && r.objects[t].a == [s.objects[t].a[0], s.objects[t].a[1] - s.g]
  {
    s.(objects := seq(|s.objects|, t requires 0 <= t < |s.objects| => Gravity(s.objects[t], s.g)))
  }

  // ---------------------------------------------------------------- integration

  /** `moveAll(dt)`: every movable body takes one `move(dt)`; fixed rectangles are
      untouched. Afterwards every movable body's acceleration is the 2-D zero vector. */
  function MoveAll(s: System, dt: real): (r: System)
    requires AllWellFormed(s.objects)
    ensures r.g == s.g && |r.objects| == |s.objects| && AllWellFormed(r.objects)
    ensures forall t :: 0 <= t < |s.objects| ==> SameBody(s.objects[t], r.objects[t])
    ensures forall t :: 0 <= t < |s.objects| && Movable(s.objects[t]) ==>
      r.objects[t] == Move(s.objects[t], dt) && r.objects[t].a == [0.0, 0.0]
  {
    s.(objects := seq(|s.objects|, t requires 0 <= t < |s.objects| =>
      if Movable(s.objects[t]) then Move(s.objects[t], dt) else s.objects[t]))
  }

  // ---------------------------------------------------------------- the pair loop

  /** The pairs the inner loop of `collisionAll` visits for a fixed `i`: `(i, j)` for
      `j = i + 1, …, n − 1`, in that order. */
  function Row(i: nat, n: nat): (row: seq<(nat, nat)>)
    ensures |row| == if i < n then n - i - 1 else 0
    ensures forall k :: 0 <= k < |row| ==> row[k] == (i, i + 1 + k)
  {
    if i < n then seq(n - i - 1, k requires 0 <= k < n - i - 1 => (i, i + 1 + k)) else []
  }

  /** The rows `i, i + 1, …, n − 1` of the loop, concatenated in visiting order. */
  function PairsFrom(i: nat, n: nat): seq<(nat, nat)>
    decreases n - i
  {
    if i < n then Row(i, n) + PairsFrom(i + 1, n) else []
  }

  /** Every `(i, j)` in the order `collisionAll` passes it to `collision`. */
  function Pairs(n: nat): seq<(nat, nat)> {
    PairsFrom(0, n)
  }

  /** Strict lexicographic order on index pairs. */
  predicate PairBefore(p: (nat, nat), q: (nat, nat)) {
    p.0 < q.0 || (p.0 == q.0 && p.1 < q.1)
  }

  lemma RowMembers(i: nat, n: nat)
    ensures forall p :: p in Row(i, n) <==> p.0 == i && i < p.1 < n
  {
    forall p: (nat, nat) | p.0 == i && i < p.1 < n
      ensures p in Row(i, n)
    {
      assert Row(i, n)[p.1 - i - 1] == p;
    }
  }

  lemma {:induction false} PairsFromMembers(i: nat, n: nat)
    ensures forall p :: p in PairsFrom(i, n) <==> i <= p.0 < p.1 < n
    decreases n - i
  {
    if i < n {
      PairsFromMembers(i + 1, n);
      RowMembers(i, n);
      assert PairsFrom(i, n) == Row(i, n) + PairsFrom(i + 1, n);
    }
  }

  lemma {:induction false} PairsFromSorted(i: nat, n: nat)
    ensures forall x, y :: 0 <= x < y < |PairsFrom(i, n)| ==> PairBefore(PairsFrom(i, n)[x], PairsFrom(i, n)[y])
    decreases n - i
  {
    if i < n {
      PairsFromSorted(i + 1, n);
      PairsFromMembers(i + 1, n);
      var row, rest := Row(i, n), PairsFrom(i + 1, n);
      var ps := row + rest;
      assert PairsFrom(i, n) == ps;
      forall x, y | 0 <= x < y < |ps|
        ensures PairBefore(ps[x], ps[y])
      {
        if y < |row| {
          assert ps[x] == row[x] && ps[y] == row[y];
        } else if x < |row| {
          assert ps[x] == row[x];
          assert ps[y] == rest[y - |row|];
          assert rest[y - |row|] in rest;
        } else {
          assert ps[x] == rest[x - |row|] && ps[y] == rest[y - |row|];
        }
      }
    }
  }

  /** `collisionAll` visits exactly the pairs `i < j < n`, each once, in strictly
      increasing lexicographic order. */
  lemma PairsExactlyOnce(n: nat)
    ensures forall p :: p in Pairs(n) <==> p.0 < p.1 < n
    ensures forall x, y :: 0 <= x < y < |Pairs(n)| ==> PairBefore(Pairs(n)[x], Pairs(n)[y])
    ensures forall x, y :: 0 <= x < y < |Pairs(n)| ==> Pairs(n)[x] != Pairs(n)[y]
  {
    PairsFromMembers(0, n);
    PairsFromSorted(0, n);
  }

  // ---------------------------------------------------------------- one pair

  /** Both bodies carry a bounding box and the boxes are apart on the x- or the y-axis:
      `collision` returns before its type dispatch. */
  predicate BoxesApart(b1: Body, b2: Body) {
    && !b1.Mass? && !b2.Mass?
    && (|| IntervalDist(b1.box.minX, b1.box.maxX, b2.box.minX, b2.box.maxX) > 0.0
        || IntervalDist(b1.box.minY, b1.box.maxY, b2.box.minY, b2.box.maxY) > 0.0)
  }

  /** `collision(objects[i], objects[j])`. A plain `Mass` has no box (its comparisons are
      NaN and fall through) and matches no case of the dispatch, so it is never affected.
      Apart boxes: nothing. Otherwise circle–circle, circle–rectangle and
      rectangle–circle act; rectangle–rectangle does nothing. */
  function Collision(fns: MathFns, bs: seq<Body>, i: nat, j: nat): (r: Result<seq<Body>>)
    requires i < |bs| && j < |bs| && i != j && AllWellFormed(bs)
    ensures r.Ok? ==> |r.value| == |bs| && AllWellFormed(r.value)
    ensures r.Ok? ==> forall t :: 0 <= t < |bs| ==> OnlyAccel(bs[t], r.value[t])
    ensures r.Ok? ==> forall t :: 0 <= t < |bs| && t != i && t != j ==> r.value[t] == bs[t]
    ensures r.Err? ==> r.error == TypeError && (bs[i].FixedRect? || bs[j].FixedRect?)
    ensures BoxesApart(bs[i], bs[j]) ==> r == Ok(bs)
    ensures bs[i].Mass? || bs[j].Mass? ==> r == Ok(bs)
    ensures bs[i].FixedRect? && bs[j].FixedRect? ==> r == Ok(bs)
  {
    var b1, b2 := bs[i], bs[j];
    if b1.Mass? || b2.Mass? || BoxesApart(b1, b2) then
      Ok(bs)
    else if b1.Circle? && b2.Circle? then
      var (c1, c2) := CircleCircle(fns, b1, b2);
      Ok(bs[i := c1][j := c2])
    else if b1.Circle? && b2.FixedRect? then
      match CircleRect(fns, b1, b2)
      case Err(e) => Err(e)
      case Ok(c) => Ok(bs[i := c])
    else if b1.FixedRect? && b2.Circle? then
      match CircleRect(fns, b2, b1)
      case Err(e) => Err(e)
      case Ok(c) => Ok(bs[j := c])
    else
      Ok(bs)
  }

  /** Two touching circles: the pair's accelerations change by equal and opposite
      momenta, whatever else the system holds. */
  lemma CollisionCirclesEqualAndOpposite(fns: MathFns, bs: seq<Body>, i: nat, j: nat)
    requires i < |bs| && j < |bs| && i != j && AllWellFormed(bs)
    requires bs[i].Circle? && bs[j].Circle?
    ensures Collision(fns, bs, i, j).Ok?
    ensures var r := Collision(fns, bs, i, j).value;
      r[i].Circle? && r[j].Circle? && MomentumBalanced(bs[i], r[i], bs[j], r[j])
  {
    CollisionOfCircles(fns, bs, i, j);
    CircleCircleEqualAndOpposite(fns, bs[i], bs[j]);
  }

  /** For two circles, `collision` leaves the pair as `CircleCircle` leaves it. */
  lemma CollisionOfCircles(fns: MathFns, bs: seq<Body>, i: nat, j: nat)
    requires i < |bs| && j < |bs| && i != j && AllWellFormed(bs)
    requires bs[i].Circle? && bs[j].Circle?
    ensures Collision(fns, bs, i, j).Ok?
    ensures var r := Collision(fns, bs, i, j).value;
      (r[i], r[j]) == if BoxesApart(bs[i], bs[j]) then (bs[i], bs[j]) else CircleCircle(fns, bs[i], bs[j])
  {
    if !BoxesApart(bs[i], bs[j]) {
      var cc := CircleCircle(fns, bs[i], bs[j]);
      var r := bs[i := cc.0][j := cc.1];
      assert Collision(fns, bs, i, j) == Ok(r);
    }
  }

  /** A circle and a fixed rectangle whose boxes overlap: `collision` hands them to
      `CircleFixedRectCollision(obj1, obj2)`, which changes the circle alone or throws. */
  lemma CollisionOfCircleRect(fns: MathFns, bs: seq<Body>, i: nat, j: nat)
    requires i < |bs| && j < |bs| && i != j && AllWellFormed(bs)
    requires bs[i].Circle? && bs[j].FixedRect? && !BoxesApart(bs[i], bs[j])
    ensures var cr := CircleRect(fns, bs[i], bs[j]);
      Collision(fns, bs, i, j) == if cr.Ok? then Ok(bs[i := cr.value]) else Err(cr.error)
  {
  }

  /** The mirror case: the rectangle comes first, and `collision` calls
      `CircleFixedRectCollision(obj2, obj1)`, which changes the circle alone or throws. */
  lemma CollisionOfRectCircle(fns: MathFns, bs: seq<Body>, i: nat, j: nat)
    requires i < |bs| && j < |bs| && i != j && AllWellFormed(bs)
    requires bs[i].FixedRect? && bs[j].Circle? && !BoxesApart(bs[i], bs[j])
    ensures var cr := CircleRect(fns, bs[j], bs[i]);
      Collision(fns, bs, i, j) == if cr.Ok? then Ok(bs[j := cr.value]) else Err(cr.error)
  {
  }

  // ---------------------------------------------------------------- all pairs

  /** Every pair of `ps` is `(i, j)` with `i < j < n`. */
  predicate PairsIn(ps: seq<(nat, nat)>, n: nat) {
    forall k :: 0 <= k < |ps| ==> ps[k].0 < ps[k].1 < n
  }

  /** `collision` on each pair of `ps` in turn; the first throw ends the pass. */
  function CollidePairs(fns: MathFns, bs: seq<Body>, ps: seq<(nat, nat)>): (r: Result<seq<Body>>)
    requires AllWellFormed(bs)
    requires PairsIn(ps, |bs|)
    ensures r.Ok? ==> |r.value| == |bs| && AllWellFormed(r.value)
    ensures r.Ok? ==> forall t :: 0 <= t < |bs| ==> OnlyAccel(bs[t], r.value[t])
    ensures r.Err? ==> r.error == TypeError
    decreases |ps|
  {
    if |ps| == 0 then
      Ok(bs)
    else
      match Collision(fns, bs, ps[0].0, ps[0].1)
      case Err(e) => Err(e)
      case Ok(bs1) =>
        var r := CollidePairs(fns, bs1, ps[1..]);
        if r.Ok? then
          assert forall t :: 0 <= t < |bs| ==> OnlyAccel(bs[t], r.value[t]) by {
            forall t | 0 <= t < |bs|
              ensures OnlyAccel(bs[t], r.value[t])
            {
              OnlyAccelTransitive(bs[t], bs1[t], r.value[t]);
            }
          }
          r
        else
          r
  }

  lemma OnlyAccelTransitive(b0: Body, b1: Body, b2: Body)
    requires OnlyAccel(b0, b1) && OnlyAccel(b1, b2)
    ensures OnlyAccel(b0, b2)
  {
  }

  /** Running the pairs of `ps1 + ps2` is running `ps1`, then `ps2` on its result. */
  lemma {:induction false} CollidePairsAppend(fns: MathFns, bs: seq<Body>, ps1: seq<(nat, nat)>, ps2: seq<(nat, nat)>)
    requires AllWellFormed(bs)
    requires PairsIn(ps1, |bs|) && PairsIn(ps2, |bs|)
    ensures CollidePairs(fns, bs, ps1 + ps2) ==
      match CollidePairs(fns, bs, ps1)
      case Err(e) => Err(e)
      case Ok(bs1) => CollidePairs(fns, bs1, ps2)
    decreases |ps1|
  {
    if |ps1| == 0 {
      assert ps1 + ps2 == ps2;
    } else {
      assert (ps1 + ps2)[0] == ps1[0];
      assert (ps1 + ps2)[1..] == ps1[1..] + ps2;
      match Collision(fns, bs, ps1[0].0, ps1[0].1)
      case Err(_) =>
      case Ok(bs1) =>
        CollidePairsAppend(fns, bs1, ps1[1..], ps2);
    }
  }

  lemma PairsFromInRange(i: nat, n: nat)
    ensures PairsIn(PairsFrom(i, n), n)
  {
    PairsFromMembers(i, n);
    forall k | 0 <= k < |PairsFrom(i, n)|
      ensures PairsFrom(i, n)[k].0 < PairsFrom(i, n)[k].1 < n
    {
      assert PairsFrom(i, n)[k] in PairsFrom(i, n);
    }
  }

  /** `collisionAll()`: `collision` on every pair `i < j` in loop order. */
  function CollisionAll(fns: MathFns, bs: seq<Body>): (r: Result<seq<Body>>)
    requires AllWellFormed(bs)
    ensures r.Ok? ==> |r.value| == |bs| && AllWellFormed(r.value)
    ensures r.Ok? ==> forall t :: 0 <= t < |bs| ==> OnlyAccel(bs[t], r.value[t])
    ensures r.Err? ==> r.error == TypeError
  {
    PairsFromInRange(0, |bs|);
    CollidePairs(fns, bs, Pairs(|bs|))
  }

  /** The pairs of row `i` from `(i, j)` on: what the inner loop has still to visit. */
  lemma {:induction false} RowRest(i: nat, j: nat, n: nat)
    requires i < j < n
    ensures PairsIn(Row(i, n)[j - i - 1..], n) && PairsIn(Row(i, n)[j - i..], n)
    ensures var rest := Row(i, n)[j - i - 1..];
      |rest| > 0 && rest[0] == (i, j) && rest[1..] == Row(i, n)[j - i..]
  {
    var rest := Row(i, n)[j - i - 1..];
    assert rest[0] == (i, j);
    assert rest[1..] == Row(i, n)[j - i..];
  }

  /** Visiting `(i, j)` without a throw: both the pair pass and the recursion go on
      from the new state with the rest of the row. */
  lemma {:induction false} RowVisit(fns: MathFns, objects: seq<Body>, i: nat, j: nat, o: seq<Body>)
    requires i < j < |objects| && AllWellFormed(objects)
    requires Collision(fns, objects, i, j) == Ok(o)
    ensures PairsIn(Row(i, |objects|)[j - i - 1..], |objects|) && PairsIn(Row(i, |objects|)[j + 1 - i - 1..], |objects|)
    ensures CollidePairs(fns, objects, Row(i, |objects|)[j - i - 1..]) ==
            CollidePairs(fns, o, Row(i, |objects|)[j + 1 - i - 1..])
  {
    RowRest(i, j, |objects|);
  }

  /** Visiting `(i, j)` with a throw: both the pair pass and the recursion throw it. */
  lemma {:induction false} RowVisitThrows(fns: MathFns, objects: seq<Body>, i: nat, j: nat)
    requires i < j < |objects| && AllWellFormed(objects)
    requires Collision(fns, objects, i, j).Err?
    ensures PairsIn(Row(i, |objects|)[j - i - 1..], |objects|)
    ensures CollidePairs(fns, objects, Row(i, |objects|)[j - i - 1..]) == Collision(fns, objects, i, j)
  {
    RowRest(i, j, |objects|);
  }

  /** The body of the inner loop: `collision(objects[i], objects[j])`. A throw is the
      outcome of the rest of row `i` from pair `(i, j)` on; otherwise the rest of the row
      goes on from the new state at pair `(i, j + 1)`. */
  method VisitPair(fns: MathFns, objects: seq<Body>, i: nat, j: nat) returns (r: Result<seq<Body>>)
    requires i < j < |objects| && AllWellFormed(objects)
    ensures PairsIn(Row(i, |objects|)[j - i - 1..], |objects|)
    ensures r.Err? ==> r == CollidePairs(fns, objects, Row(i, |objects|)[j - i - 1..])
    ensures r.Ok? ==> |r.value| == |objects| && AllWellFormed(r.value)
    ensures r.Ok? ==> PairsIn(Row(i, |objects|)[j + 1 - i - 1..], |objects|)
    ensures r.Ok? ==> CollidePairs(fns, objects, Row(i, |objects|)[j - i - 1..])
                      == CollidePairs(fns, r.value, Row(i, |objects|)[j + 1 - i - 1..])
  {
    r := Collision(fns, objects, i, j);
    if r.Err? {
      RowVisitThrows(fns, objects, i, j);
    } else {
      RowVisit(fns, objects, i, j, r.value);
    }
  }

  /** The inner loop of `collisionAll` for row `i`: `collision(objects[i], objects[j])`
      for `j = i + 1, …, n − 1`, from the state `start`; a throw ends the row. */
  method CollideRow(fns: MathFns, i: nat, start: seq<Body>) returns (r: Result<seq<Body>>)
    requires i < |start| && AllWellFormed(start)
    ensures PairsIn(Row(i, |start|), |start|)
    ensures r == CollidePairs(fns, start, Row(i, |start|))
  {
    var n := |start|;
    var objects := start;
    var j := i + 1;
    assert Row(i, n)[0..] == Row(i, n);
    ghost var goal := CollidePairs(fns, start, Row(i, n));
    while j < n
      invariant i + 1 <= j <= n && |objects| == n && AllWellFormed(objects)
      invariant PairsIn(Row(i, n)[j - i - 1..], n)
      invariant goal == CollidePairs(fns, objects, Row(i, n)[j - i - 1..])
    {
      var res := VisitPair(fns, objects, i, j);
      if res.Err? {
        return res;
      }
      objects := res.value;
      j := j + 1;
    }
    assert Row(i, n)[j - i - 1..] == [];
    return Ok(objects);
  }

  /** Rows `i, i + 1, …` are row `i` followed by the rows after it. */
  lemma {:induction false} RowsFrom(fns: MathFns, objects: seq<Body>, i: nat)
    requires i < |objects| && AllWellFormed(objects)
    ensures PairsIn(PairsFrom(i, |objects|), |objects|) && PairsIn(PairsFrom(i + 1, |objects|), |objects|)
    ensures CollidePairs(fns, objects, PairsFrom(i, |objects|)) ==
      match CollidePairs(fns, objects, Row(i, |objects|))
      case Err(e) => Err(e)
      case Ok(o) => CollidePairs(fns, o, PairsFrom(i + 1, |objects|))
  {
    var n := |objects|;
    PairsFromInRange(i, n);
    PairsFromInRange(i + 1, n);
    assert PairsFrom(i, n) == Row(i, n) + PairsFrom(i + 1, n);
    CollidePairsAppend(fns, objects, Row(i, n), PairsFrom(i + 1, n));
  }

  /** `collisionAll()` as written: two nested `for` loops calling `collision(objects[i],
      objects[j])` for `j > i`; a throw ends the pass. */
  method CollisionAllLoops(fns: MathFns, bs: seq<Body>) returns (r: Result<seq<Body>>)
    requires AllWellFormed(bs)
    ensures r == CollisionAll(fns, bs)
  {
    var n := |bs|;
    var objects := bs;
    var i := 0;
    PairsFromInRange(0, n);
    while i < n
      invariant i <= n && |objects| == n && AllWellFormed(objects)
      invariant PairsIn(PairsFrom(i, n), n)
      invariant CollisionAll(fns, bs) == CollidePairs(fns, objects, PairsFrom(i, n))
    {
      RowsFrom(fns, objects, i);
      var res := CollideRow(fns, i, objects);
      if res.Err? {
        return res;
      }
      objects := res.value;
      i := i + 1;
    }
    return Ok(objects);
  }

  // ---------------------------------------------------------------- energy

  /** One body's term of `totalEnergy`: kinetic `½·m·|v|²` plus potential `m·g·y`;
      the `movable` filter leaves fixed rectangles out. */
  function BodyEnergy(b: Body, g: real): real
    requires WellFormed(b)
  {
    if Movable(b) then 0.5 * b.m * SizeSqr(b.v) + b.m * g * b.p[1] else 0.0
  }

  /** `totalEnergy()`: the running sum of the terms, in list order. */
  function TotalEnergy(bs: seq<Body>, g: real): real
    requires AllWellFormed(bs)
    decreases |bs|
  {
    if |bs| == 0 then 0.0 else TotalEnergy(bs[..|bs| - 1], g) + BodyEnergy(bs[|bs| - 1], g)
  }

  /** The energy of two lists side by side is the sum of their energies. */
  lemma {:induction false} TotalEnergyAppend(xs: seq<Body>, ys: seq<Body>, g: real)
    requires AllWellFormed(xs) && AllWellFormed(ys)
    ensures AllWellFormed(xs + ys)
    ensures TotalEnergy(xs + ys, g) == TotalEnergy(xs, g) + TotalEnergy(ys, g)
    decreases |ys|
  {
    if |ys| > 0 {
      var zs := xs + ys;
      TotalEnergyAppend(xs, ys[..|ys| - 1], g);
      assert zs[..|zs| - 1] == xs + ys[..|ys| - 1];
      assert zs[|zs| - 1] == ys[|ys| - 1];
    } else {
      assert xs + ys == xs;
    }
  }

  /** Fixed rectangles contribute nothing: a list of them has zero energy. */
  lemma {:induction false} TotalEnergyOfFixed(bs: seq<Body>, g: real)
    requires AllWellFormed(bs)
    requires forall t :: 0 <= t < |bs| ==> bs[t].FixedRect?
    ensures TotalEnergy(bs, g) == 0.0
    decreases |bs|
  {
    if |bs| > 0 {
      TotalEnergyOfFixed(bs[..|bs| - 1], g);
    }
  }

  /** Energy reads only positions, velocities and masses, so a pass that changes nothing
      but accelerations leaves it unchanged. */
  lemma {:induction false} EnergyIgnoresAccel(bs: seq<Body>, rs: seq<Body>, g: real)
    requires AllWellFormed(bs) && AllWellFormed(rs) && |rs| == |bs|
    requires forall t :: 0 <= t < |bs| ==> OnlyAccel(bs[t], rs[t])
    ensures TotalEnergy(rs, g) == TotalEnergy(bs, g)
    decreases |bs|
  {
    if |bs| > 0 {
      EnergyIgnoresAccel(bs[..|bs| - 1], rs[..|rs| - 1], g);
      assert OnlyAccel(bs[|bs| - 1], rs[|rs| - 1]);
    }
  }

  // ---------------------------------------------------------------- the tick

  /** One tick of the page driver: `gravityAll()`, `collisionAll()`, `moveAll(dt)`. */
  function Step(fns: MathFns, s: System, dt: real): (r: Result<System>)
    requires AllWellFormed(s.objects)
    ensures r.Err? ==> r.error == TypeError
    ensures r.Ok? ==> r.value.g == s.g && |r.value.objects| == |s.objects| && AllWellFormed(r.value.objects)
    ensures r.Ok? ==> forall t :: 0 <= t < |s.objects| ==> SameBody(s.objects[t], r.value.objects[t])
    ensures r.Ok? ==> forall t :: 0 <= t < |s.objects| && Movable(s.objects[t]) ==>
      Movable(r.value.objects[t]) && r.value.objects[t].a == [0.0, 0.0]
  {
    var s1 := GravityAll(s);
    match CollisionAll(fns, s1.objects)
    case Err(e) => Err(e)
    case Ok(bs) =>
      var r := MoveAll(s1.(objects := bs), dt);
      assert forall t :: 0 <= t < |s.objects| ==> OnlyAccel(s.objects[t], bs[t]) by {
        forall t | 0 <= t < |s.objects|
          ensures OnlyAccel(s.objects[t], bs[t])
        {
          OnlyAccelTransitive(s.objects[t], s1.objects[t], bs[t]);
        }
      }
      Ok(r)
  }

  /** Gravity and collisions only touch accelerations, so they leave the total energy as
      it was: within a tick, only `moveAll` changes it. */
  lemma AccelerationPassesKeepEnergy(fns: MathFns, s: System)
    requires AllWellFormed(s.objects)
    ensures TotalEnergy(GravityAll(s).objects, s.g) == TotalEnergy(s.objects, s.g)
    ensures CollisionAll(fns, GravityAll(s).objects).Ok? ==>
      TotalEnergy(CollisionAll(fns, GravityAll(s).objects).value, s.g) == TotalEnergy(s.objects, s.g)
  {
    var s1 := GravityAll(s);
    EnergyIgnoresAccel(s.objects, s1.objects, s.g);
    var c := CollisionAll(fns, s1.objects);
    if c.Ok? {
      EnergyIgnoresAccel(s1.objects, c.value, s.g);
    }
  }

  /** `n` ticks in a row; the first throw ends the run. */
  function Run(fns: MathFns, s: System, dt: real, n: nat): (r: Result<System>)
    requires AllWellFormed(s.objects)
    ensures r.Ok? ==> r.value.g == s.g && |r.value.objects| == |s.objects| && AllWellFormed(r.value.objects)
    decreases n
  {
    if n == 0 then
      Ok(s)
    else
      match Step(fns, s, dt)
      case Err(e) => Err(e)
      case Ok(s1) => Run(fns, s1, dt, n - 1)
  }

  /** A system holding a single movable body: there is no pair to collide. */
  predicate Lone(s: System) {
    |s.objects| == 1 && AllWellFormed(s.objects) && Movable(s.objects[0])
  }

  /** What one tick does to a body that meets nothing: gravity, then `move(dt)`. */
  function Fall(b: Body, g: real, dt: real): (r: Body)
    requires Movable(b) && WellFormed(b)
    ensures Movable(r) && WellFormed(r) && r.m == b.m && r.a == [0.0, 0.0]
  {
    Move(Gravity(b, g), dt)
  }

  /** A lone body's tick is its `Fall`: `collisionAll` has no pair to visit. */
  lemma LoneStep(fns: MathFns, s: System, dt: real)
    requires Lone(s)
    ensures Step(fns, s, dt) == Ok(System(s.g, [Fall(s.objects[0], s.g, dt)]))
  {
    var b := s.objects[0];
    var s1 := GravityAll(s);
    assert Pairs(1) == [] by {
      assert PairsFrom(1, 1) == [];
      assert Row(0, 1) == [];
    }
    assert CollisionAll(fns, s1.objects) == Ok(s1.objects);
    assert s1.objects == [Gravity(b, s.g)];
    var s2 := MoveAll(s1, dt);
    assert s2.objects[0] == Fall(b, s.g, dt);
    assert s2.objects == [Fall(b, s.g, dt)];
    assert Step(fns, s, dt) == Ok(s2);
  }

  /** `n` falls in a row. */
  function FallN(b: Body, g: real, dt: real, n: nat): (r: Body)
    requires Movable(b) && WellFormed(b)
    ensures Movable(r) && WellFormed(r) && r.m == b.m
    ensures n > 0 ==> r.a == [0.0, 0.0]
    decreases n
  {
    if n == 0 then b else FallN(Fall(b, g, dt), g, dt, n - 1)
  }

  /** `n` ticks of a lone body are `n` falls. */
  lemma {:induction false} RunLone(fns: MathFns, s: System, dt: real, n: nat)
    requires Lone(s)
    ensures Run(fns, s, dt, n) == Ok(System(s.g, [FallN(s.objects[0], s.g, dt, n)]))
    decreases n
  {
    if n > 0 {
      LoneStep(fns, s, dt);
      var b1 := Fall(s.objects[0], s.g, dt);
      var s1 := System(s.g, [b1]);
      assert Lone(s1);
      RunLone(fns, s1, dt, n - 1);
      assert FallN(s.objects[0], s.g, dt, n) == FallN(b1, s.g, dt, n - 1);
    } else {
      assert s.objects == [s.objects[0]];
    }
  }

  /** One fall from rest acceleration: the velocity loses `g·dt` in y. */
  lemma FallVelocity(b: Body, g: real, dt: real)
    requires Movable(b) && WellFormed(b) && b.a == [0.0, 0.0] && dt != 0.0
    ensures Fall(b, g, dt).v == [b.v[0], b.v[1] - g * dt]
  {
    var b1 := Gravity(b, g);
    assert b1.v == b.v && b1.p == b.p && b1.a == [0.0, -g];
    MoveIsSemiImplicitEuler(b1, dt);
    var r := Fall(b, g, dt);
    assert r.v[0] == b.v[0] && r.v[1] == b.v[1] - g * dt;
  }

  /** One fall from rest acceleration: the position advances by the new velocity. */
  lemma FallPosition(b: Body, g: real, dt: real)
    requires Movable(b) && WellFormed(b) && b.a == [0.0, 0.0] && dt != 0.0
    ensures Fall(b, g, dt).p == [b.p[0] + b.v[0] * dt, b.p[1] + (b.v[1] - g * dt) * dt]
  {
    FallVelocity(b, g, dt);
    var b1 := Gravity(b, g);
    assert b1.p == b.p;
    MoveIsSemiImplicitEuler(b1, dt);
    var r := Fall(b, g, dt);
    assert r == Move(b1, dt);
    assert r.p[0] == b.p[0] + b.v[0] * dt;
    assert r.p[1] == b.p[1] + (b.v[1] - g * dt) * dt;
  }

  /** A movable body's energy with its 2-D sums written out. */
  lemma BodyEnergyOf(b: Body, g: real, m: real, vx: real, vy: real, y: real)
    requires Movable(b) && WellFormed(b)
    requires b.m == m && b.v[0] == vx && b.v[1] == vy && b.p[1] == y
    ensures BodyEnergy(b, g) == 0.5 * m * (vx * vx + vy * vy) + m * g * y
  {
    Unfold2(b.v, b.v);
  }

  /** `½·m·(g·dt)²`: the energy one semi-implicit Euler step of free fall loses. */
  function FallLoss(m: real, g: real, dt: real): real {
    0.5 * m * (g * dt) * (g * dt)
  }

  /** The energy bookkeeping of one fall, stated on the components it changes. */
  lemma EnergyAfterFall(b: Body, r: Body, g: real, dt: real)
    requires Movable(b) && WellFormed(b) && Movable(r) && WellFormed(r)
    requires r.m == b.m && r.v[0] == b.v[0] && r.v[1] == b.v[1] - g * dt
    requires r.p[1] == b.p[1] + (b.v[1] - g * dt) * dt
    ensures BodyEnergy(r, g) == BodyEnergy(b, g) - FallLoss(b.m, g, dt)
  {
    var m, vx, vy, y := b.m, b.v[0], b.v[1], b.p[1];
    var vy1 := vy - g * dt;
    BodyEnergyOf(b, g, m, vx, vy, y);
    BodyEnergyOf(r, g, m, vx, vy1, y + vy1 * dt);
    FreeFallArithmetic(m, g, dt, vx, vy, y);
  }

  /** The semi-implicit Euler step loses exactly `½·m·(g·dt)²` of energy per fall. */
  lemma FallEnergy(b: Body, g: real, dt: real)
    requires Movable(b) && WellFormed(b) && b.a == [0.0, 0.0] && dt != 0.0
    ensures BodyEnergy(Fall(b, g, dt), g) == BodyEnergy(b, g) - FallLoss(b.m, g, dt)
  {
    var r := Fall(b, g, dt);
    FallVelocity(b, g, dt);
    FallPosition(b, g, dt);
    assert r.v[1] == b.v[1] - g * dt;
    assert r.p[1] == b.p[1] + (b.v[1] - g * dt) * dt;
    EnergyAfterFall(b, r, g, dt);
  }

  lemma FreeFallArithmetic(m: real, g: real, dt: real, vx: real, vy: real, y: real)
    ensures var vy1 := vy - g * dt;
      0.5 * m * (vx * vx + vy1 * vy1) + m * g * (y + vy1 * dt)
        == 0.5 * m * (vx * vx + vy * vy) + m * g * y - FallLoss(m, g, dt)
  {
    var vy1 := vy - g * dt;
    calc {
      0.5 * m * (vx * vx + vy1 * vy1) + m * g * (y + vy1 * dt);
      0.5 * m * (vx * vx + vy * vy) + 0.5 * m * (vy1 * vy1 - vy * vy) + m * g * y + m * g * vy1 * dt;
      { assert vy1 * vy1 - vy * vy == -2.0 * vy * g * dt + (g * dt) * (g * dt); }
      0.5 * m * (vx * vx + vy * vy) + m * g * y - m * vy * g * dt + 0.5 * m * (g * dt) * (g * dt) + m * g * (vy - g * dt) * dt;
      0.5 * m * (vx * vx + vy * vy) + m * g * y - 0.5 * m * (g * dt) * (g * dt);
    }
  }

  /** `x` added up `n` times. */
  function Times(n: nat, x: real): real {
    if n == 0 then 0.0 else Times(n - 1, x) + x
  }

  lemma {:induction false} TimesIsProduct(n: nat, x: real)
    ensures Times(n, x) == (n as real) * x
  {
    if n > 0 {
      TimesIsProduct(n - 1, x);
    }
  }

  /** `n` falls from rest acceleration: the x-velocity is unchanged and the y-velocity
      has lost `g·dt` `n` times over. */
  lemma {:induction false} FallNVelocity(b: Body, g: real, dt: real, n: nat)
    requires Movable(b) && WellFormed(b) && b.a == [0.0, 0.0] && dt != 0.0
    ensures var r := FallN(b, g, dt, n);
      r.v[0] == b.v[0] && r.v[1] == b.v[1] - Times(n, g * dt)
    decreases n
  {
    if n > 0 {
      var b1 := Fall(b, g, dt);
      FallVelocity(b, g, dt);
      FallNVelocity(b1, g, dt, n - 1);
      assert FallN(b1, g, dt, n - 1) == FallN(b, g, dt, n);
    }
  }

  /** `n` falls from rest acceleration lose `½·m·(g·dt)²` of energy `n` times over. */
  lemma {:induction false} FallNEnergy(b: Body, g: real, dt: real, n: nat)
    requires Movable(b) && WellFormed(b) && b.a == [0.0, 0.0] && dt != 0.0
    ensures BodyEnergy(FallN(b, g, dt, n), g) == BodyEnergy(b, g) - Times(n, FallLoss(b.m, g, dt))
    decreases n
  {
    if n > 0 {
      var b1 := Fall(b, g, dt);
      var drop := FallLoss(b.m, g, dt);
      FallEnergy(b, g, dt);
      FallNEnergy(b1, g, dt, n - 1);
      assert b1.m == b.m;
      assert FallN(b1, g, dt, n - 1) == FallN(b, g, dt, n);
      assert Times(n, drop) == Times(n - 1, drop) + drop;
    }
  }

  lemma SingleEnergy(bs: seq<Body>, g: real)
    requires |bs| == 1 && AllWellFormed(bs)
    ensures TotalEnergy(bs, g) == BodyEnergy(bs[0], g)
  {
    assert bs[..0] == [];
  }

  /** A lone body dropped with rest acceleration, `n` ticks later: the run does not
      throw, and the system's total energy has dropped by `½·m·(g·dt)²` `n` times over
      (`Times(n, x) == n·x` by `TimesIsProduct`): the energy drift of semi-implicit
      Euler, which never conserves energy exactly. */
  lemma FreeFallEnergy(fns: MathFns, s: System, dt: real, n: nat)
    requires Lone(s) && s.objects[0].a == [0.0, 0.0] && dt != 0.0
    ensures Run(fns, s, dt, n).Ok? && Lone(Run(fns, s, dt, n).value)
    ensures TotalEnergy(Run(fns, s, dt, n).value.objects, s.g) ==
      TotalEnergy(s.objects, s.g) - Times(n, FallLoss(s.objects[0].m, s.g, dt))
  {
    var b := s.objects[0];
    RunLone(fns, s, dt, n);
    var r := FallN(b, s.g, dt, n);
    FallNEnergy(b, s.g, dt, n);
    SingleEnergy(s.objects, s.g);
    SingleEnergy([r], s.g);
  }
}
